=== FILE: README.md ===
# Water_Model backend in Dafny

This project models the backend of Water_Model in Dafny. Water_Model is a reservoir and rainfall question-answering service. A chat model (ChatGLM3, behind an OpenAI-compatible endpoint) answers user questions. It can call registered data tools that query a hydrology API. The project models five parts of that backend as pure functions and methods over immutable data, and proves properties about them.

- **Tool registry** (`backend/tool_register.py`, module `ToolRegistry`):
  - Registering a tool validates its annotated parameters and stores a descriptor.
  - Dispatching by name returns a sentinel string for an unknown name. A tool that raises gives its traceback text.
  - Listing returns the registered descriptors.
- **Data-tool post-processing** (`backend/tool_register.py`, module `DataTools`):
  - the page arithmetic of `get_stations_info`;
  - the "filter only when the fuzzy match found something" rule;
  - the stripping of the dam marker `(坝上)`/`（坝上）` from reservoir names;
  - the units appended to the first reservoir record.
- **Conversation driver** (`backend/GLM_api2.py`, module `Conversation`): `run_conversation` as a state machine over an append-only message list. The completion endpoint, `json.loads` and tool invocation are its parameters. A corrected loop, `RunConversationIntended`, sits beside the as-written one.
- **Reply shaping** (`backend/app.py`, module `ChatReply`): `convert_message`, then the `None`/convert/filter/fallback logic of the `/chat` route.
- **Station routes** (`backend/station.py`, module `Stations`): argument defaults, the station filter, and the error shape of both routes.
- **Forecast arithmetic** (`backend/predict_lightgbm.py`, module `Forecast`): first differences, the sliding-window training set, and the reconstruction of levels from predicted changes. Levels are exact reals.

Shared modules:

| module | contents |
|---|---|
| `Wrappers` | `Option` and `Result` |
| `Seqs` | an order-preserving filter and its lemmas, integer ranges, sums |
| `PyText` | Python's `str.strip`, the substring test `in`, `str.replace` and `str.join` |
| `Values` | JSON-like values, records as `map<string, Value>`, Python's `str()` of a value, `dict.get` |
| `Messages` | the three kinds of chat message the backend handles |

Collaborators the backend calls are parameters of the model:
- the completion endpoint;
- the HTTP responses of the hydrology API;
- `json.loads` and `json.dumps`;
- `uuid.uuid4`;
- `difflib.get_close_matches`;
- calling a registered tool;
- the trained LightGBM model.

## Model

| member | source | states |
|---|---|---|
| PyText.Strip | backend/tool_register.py:25 | The stored tool description is the docstring with its leading and trailing whitespace removed. The result is a contiguous piece of the docstring with no whitespace at either end. Everything cut off before it and after it is whitespace. |
| PyText.StripTrimmed | backend/tool_register.py:25 | A docstring without whitespace at either end is stored unchanged. |
| PyText.StripIdempotent | backend/tool_register.py:25 | Stripping an already stripped description changes nothing. |
| ToolRegistry.CheckParam | backend/tool_register.py:28-47 | A parameter passes exactly when it is `Annotated` with a string description and a bool required flag. Passing yields a parameter entry with its name, type tag, description and flag. Failing names that parameter. |
| ToolRegistry.CheckParams | backend/tool_register.py:28-47 | The signature passes exactly when every parameter is well formed. The entries match the parameters one-to-one in declaration order. A failure reports the first ill-formed parameter. |
| ToolRegistry.TypeTag | backend/tool_register.py:36 | A plain class is tagged with its name. A generic alias is tagged with its origin followed by square brackets, and every one of its arguments appears in the tag. |
| ToolRegistry.TagNamesArgs | backend/tool_register.py:36 | Every argument of a generic alias occurs in the text `origin[arg, ...]`. |
| ToolRegistry.ErrorMessage | backend/tool_register.py:25-40 | Each registration failure has the text of the exception Python raises. Every error about one parameter names that parameter. |
| ToolRegistry.Validate | backend/tool_register.py:24-52 | Validation fails exactly when the docstring is missing or some parameter is ill formed. It reports a missing docstring first. On success the descriptor has the function's name, the stripped docstring and one entry per parameter. |
| ToolRegistry.RegisterTool | backend/tool_register.py:23-58 | Registration fails exactly when validation fails, and a failure leaves both tables unchanged. On success the function is stored under its name in both tables, with its descriptor, and is returned unchanged. Other names are untouched. The invariant that both tables share the same keys, listed once in insertion order, is preserved. |
| ToolRegistry.InsertKeepsValid | backend/tool_register.py:55-56 | Writing a descriptor under its own name into both tables keeps the invariant: both tables share the same keys, and each name is listed once in insertion order. |
| ToolRegistry.EmptyRegistryValid | backend/tool_register.py:19-20 | The two empty module-level tables satisfy the registry invariant, and listing them gives no tool. |
| ToolRegistry.Dispatch | backend/tool_register.py:61-69 | An unregistered name yields exactly ``Tool `<name>` not found. Please use a provided tool.`` A registered tool yields the `str` of its return value, or its traceback text when it raises. |
| ToolRegistry.DispatchUnknownInvokesNothing | backend/tool_register.py:62-63 | For an unregistered name, the answer is the same whatever invoking a tool would do, so no tool is invoked. |
| ToolRegistry.DispatchAfterRegister | backend/tool_register.py:55-69 | After a successful registration, dispatching the function's name calls that function and reports its result or traceback. |
| ToolRegistry.GetTools | backend/tool_register.py:72-73 | The listing has one entry per registered name, in registration order, each the descriptor filed under that name. |
| ToolRegistry.GetToolsListsEvery | backend/tool_register.py:72-73 | Every registered descriptor appears in the listing, and no name appears twice. |
| ToolRegistry.GetToolsAfterRegisterNew | backend/tool_register.py:55-56 | Registering a new name appends its descriptor to the listing and keeps the earlier ones. |
| ToolRegistry.GetToolsAfterRegisterKnown | backend/tool_register.py:55-56 | Re-registering a known name replaces its descriptor in place. The listing keeps its length and every other entry. |
| DataTools.PageCountIsCeiling | backend/tool_register.py:149 | With Python's truncating `int(a/b)` and floor `%`, the page count for a non-negative total and a positive page size is the ceiling of total/size. |
| DataTools.PageCount | backend/tool_register.py:149 | The page count fails exactly for a zero page size, which is the `ZeroDivisionError` the tool turns into `[]`. |
| DataTools.TwoPages | backend/tool_register.py:149 | A total strictly above one page size and at most two gives exactly two pages. |
| DataTools.ExtraPagesAsWrittenMissesLast | backend/tool_register.py:150-152 | As written, with two or more pages, the first extra request asks for page 1 again and page `pages` is never requested. |
| DataTools.PaginationCounterexample | backend/tool_register.py:132-152 | 150 records at 100 per page: two pages, but the pages requested are 1 and 1. |
| DataTools.ExtraPages | backend/tool_register.py:150-152 | Corrected: after page 1, the requests are pages 2 to `pages` in order, each within range. |
| DataTools.ExtraPagesCoverAll | backend/tool_register.py:149-152 | With the corrected list, every page from 1 to the ceiling of total/size is requested exactly once, in order. |
| DataTools.Paginate | backend/tool_register.py:150-152 | Paging succeeds exactly when every page fetch does. The rows are the first page's rows followed by each fetched page's rows, in page order. |
| DataTools.FieldValues | backend/tool_register.py:155 | The candidate list is each record's field, in record order. It fails exactly when a record lacks the field (the `KeyError` that sends the tool to `[]`). |
| DataTools.Resolve | backend/tool_register.py:154-155 | No query leaves nothing to match. A query fails with `KeyError` exactly when some record lacks the field. A match from a matcher that returns one of its candidates is the field of some record. |
| DataTools.KeepMatching | backend/tool_register.py:156-158 | With no match, the records are kept as they are. With a match, a record is kept exactly when it carries the matched value under the key. The result is never longer than the input. |
| DataTools.KeepMatchingKeepsOrder | backend/tool_register.py:156-158 | The filter keeps the records' order: filtering a concatenation concatenates the filtered parts. |
| DataTools.KeepMatchingSingle | backend/tool_register.py:157-158 | A single record comes back once when it passes the filter and not at all otherwise. With the order lemma, this fixes the result of the comprehension record by record. |
| DataTools.MatchedNameKeepsARecord | backend/tool_register.py:78-93 | When the fuzzy matcher returns one of the candidates, filtering on it keeps at least one record. |
| DataTools.FilterByStation | backend/tool_register.py:154-160 | A record lacking `站名` while a name is given gives `[]`. Otherwise the result is the order-preserving `站名` filter over the rows: a record is kept exactly when there is no station name, no close match, or it carries the matched name. |
| DataTools.GetStationsInfoWith | backend/tool_register.py:146-172 | For any list of further pages: a failed first fetch, a zero page size or a failed page gives `[]`. Otherwise the result is the station filter over the first page's rows followed by the further pages' rows, in order. |
| DataTools.GetStationsInfoAsWritten | backend/tool_register.py:146-172 | As written: a failed first fetch or a zero page size gives `[]`. With two or more pages, the further pages requested are `range(1, pages)`; a failed one gives `[]`. Otherwise the station filter runs over the first page's rows followed by those pages' rows. |
| DataTools.SinglePageUnfiltered | backend/tool_register.py:149-158 | With no station name and at most one page of records, the first page's rows come back as they are. |
| DataTools.StationsSecondPage | backend/tool_register.py:146-152 | Between one and two pages of records: as written, the result is page 1 twice. Corrected, it is page 1 followed by page 2. |
| DataTools.GetStationsInfo | backend/tool_register.py:146-172 | Corrected: a failed first fetch or a zero page size gives `[]`. Otherwise a failed later page gives `[]`. If every page arrives, the result is the station filter applied to the first page's rows followed by the rows of pages 2 to `pages`. With no station name and one page, the first page's rows come back unfiltered. |
| DataTools.NormalizeArea | backend/tool_register.py:196-197 | An empty administrative area is treated as no area. Any other area is kept. |
| DataTools.GetRainInfo | backend/tool_register.py:196-234 | A failed decode gives `[]`, and so does a record lacking a field that a given name is matched against. Otherwise the result is the area filter followed by the station filter, each order preserving. A record is kept exactly when it passes both. A filter is skipped when no name was given or the matcher found no close match. With no area and no station name, all records come back unchanged. |
| DataTools.StripDamMarkersRemovesSuffix | backend/tool_register.py:271-275 | For a name without brackets, a trailing `(坝上)` or `（坝上）` is removed, and a name without a marker is unchanged. |
| DataTools.StripDamMarkers | backend/tool_register.py:272-275 | Removing the markers never lengthens a name or introduces a character that was not in it. |
| DataTools.StripDamMarkersRemovesInner | backend/tool_register.py:272-275 | In a name with no other brackets, a `(坝上)` or `（坝上）` anywhere is removed and the text on both sides of it is kept. |
| PyText.ReplaceSingle | backend/tool_register.py:273-275 | `str.replace` on a single occurrence, whose first character appears nowhere else, swaps it for the replacement and keeps the text around it. |
| PyText.ReplaceByEmptyShrinks | backend/tool_register.py:273-275 | Replacing a pattern by the empty string never lengthens the string or introduces a new character. |
| DataTools.CleanNames | backend/tool_register.py:271-275 | Renaming fails exactly when some record lacks `库名` or holds a non-string there (a number, a bool or `None` makes the `in` test raise). Otherwise every record keeps its other fields and gets its name with the markers stripped. |
| DataTools.AddUnits | backend/tool_register.py:287-296 | Adding units fails exactly when a unit field is missing. It keeps the record's keys, and fields without a unit are unchanged. |
| DataTools.AddUnitsEffect | backend/tool_register.py:287-296 | `库水位` and `坝顶高程` get `米`, `蓄水量` gets `亿立方米`, and `入库流速` gets `米/秒`, each appended to the field's `str()`. |
| DataTools.WithUnits | backend/tool_register.py:287-296 | Only the first surviving record gets units. The others are returned unchanged and the count is kept. |
| DataTools.WithUnitsKeepsName | backend/tool_register.py:287-296 | Adding units never changes a record's `库名`. Every record after the first passes through as it was. |
| DataTools.GetReservoirInfo | backend/tool_register.py:258-308 | A failed decode, a bad `库名`, or a record lacking a field that a given name is matched against gives `[]`. Otherwise the kept records are exactly those passing the area and name filters. The result is empty exactly when none is kept or the first lacks a unit field. Otherwise it has the kept records, with units added to the first only. |
| DataTools.ReservoirResultsMatchName | backend/tool_register.py:276-296 | When the reservoir name is matched, every returned record carries the matched name under `库名`. Records after the first are cleaned decoded records. |
| Conversation.MakeRequest | backend/GLM_api2.py:19-21 | The request names model `chatglm3` and carries the messages and the stream flag. The `functions` key is present exactly when tools are given, and then holds them. |
| Conversation.ToolTurn | backend/GLM_api2.py:30-41 | Undecodable arguments raise the decoder's error. Otherwise the tool is dispatched with the decoded arguments, and the assistant message and the function result are appended in that order. |
| Conversation.HandleCompletion | backend/GLM_api2.py:25-46 | A completion without a function call appends the message and ends the run. With a call whose arguments decode, a tool round always follows with those arguments: the SDK message and then the result of dispatching the call are appended. Malformed arguments raise exactly then. |
| Conversation.FirstFinish | backend/GLM_api2.py:50-59 | The index of the first chunk that carries `stop` or `function_call`, or the chunk count when no chunk does. |
| Conversation.FirstFinishIs | backend/GLM_api2.py:50-59 | A chunk that finishes, with no finishing chunk before it, is the one the chunk loop stops at. |
| Conversation.ScanStream | backend/GLM_api2.py:49-83 | The chunk loop runs out exactly when no chunk finishes. On `stop`, one assistant message is appended whose content concatenates all contents up to and including that chunk. On `function_call`: a missing call raises the `AttributeError`, undecodable arguments raise the decoder's error, and decodable ones always give a tool round. A tool round appends the accumulated text, then the result of dispatching the call with the decoded arguments. |
| Conversation.Step | backend/GLM_api2.py:24-83 | An unreachable endpoint, or a reply of the wrong shape for the `stream` flag, raises. A final reply appends exactly one message, and a tool round exactly two, after the unchanged list. A stream that runs out leaves the list as it was. |
| Conversation.RunConversation | backend/GLM_api2.py:18-85 | The first request is the history followed by exactly one user message. The `functions` key is sent only when tools are given. At most two requests are sent, and fewer tools are dispatched than requests. |
| Conversation.AtMostOneDispatch | backend/GLM_api2.py:24-85 | Whatever `max_retry` is, at most one tool is dispatched per call. |
| Conversation.NonPositiveRetryGivesNone | backend/GLM_api2.py:18-24 | With `max_retry <= 0`, one request is sent and the result is `None`. |
| Conversation.HistoryIsAppendOnly | backend/GLM_api2.py:19-57 | A returned message list is the caller's history, the user message and exactly one assistant reply: the SDK message, or the streamed text as an assistant dict. |
| Conversation.NonStreamToolRound | backend/GLM_api2.py:26-41 | A non-streamed function call dispatches once with the decoded arguments. It re-queries with exactly two more messages: the SDK message, then the function result. It returns the raw reply. |
| Conversation.NonStreamFinal | backend/GLM_api2.py:42-46 | A non-streamed reply without a function call returns the history, the user message and that reply's own SDK message, after one request and no dispatch. |
| Conversation.StreamToolRound | backend/GLM_api2.py:49-85 | A streamed function call dispatches once with the decoded arguments. It re-queries with exactly two more messages: the accumulated text as an assistant message, then the function result. It returns the raw reply. |
| Conversation.MalformedArgumentsPropagate | backend/GLM_api2.py:30 | Malformed tool arguments make the call raise, after one request and no dispatch. |
| Conversation.StreamStopAppendsConcatenation | backend/GLM_api2.py:49-57 | A stream ending in `stop` returns the list with one assistant message holding the concatenated contents, where a missing content counts as empty. |
| Conversation.ToolRoundNeverReturnsHistory | backend/GLM_api2.py:84-85 | As written, a call that dispatched a tool never returns the message list. |
| Conversation.Drive | backend/GLM_api2.py:24-85 | Corrected loop: each round adds at most one request and one dispatch. Earlier requests and dispatches are kept in order. |
| Conversation.RunConversationIntended | backend/GLM_api2.py:18-85 | Corrected: at most `max_retry` dispatches and `1 + max_retry` requests, starting from the history plus the user message. |
| Conversation.IntendedToolThenFinal | backend/GLM_api2.py:24-46 | Corrected: a tool call followed by a final answer returns the whole message list. That list holds the user message, the call, the function result and the final answer. |
| ChatReply.ConvertMessage | backend/app.py:10-48 | Every converted message carries the fresh id. An SDK message becomes its dump: its role, its content (or null) and its function call (or null). A `function` dict becomes an assistant message `函数 <name> 的查询结果:` followed by the JSON. Any other dict keeps its fields. Any other value becomes an assistant message with its `str()`. Conversion fails exactly for an object whose `function_call` is `None`. |
| ChatReply.ConvertAll | backend/app.py:78 | Conversion of the list succeeds exactly when every element converts. The i-th result is the i-th element converted with the i-th fresh id. |
| ChatReply.ConvertTexts | backend/app.py:43-48 | Values that are neither objects nor dicts convert one by one to assistant messages holding their text, each with its own fresh id. |
| ChatReply.Chat | backend/app.py:51-120 | `None` gives the apology message. An exception gives status 500, `success: false` and the error. An element that fails to convert gives the retry message. Every outcome other than an exception succeeds with at least one message. A reply carrying an output log has only assistant or function messages. |
| ChatReply.Shape | backend/app.py:80-113 | Once every element converted, the answer always succeeds with at least one message. A converted message without `content` or `role` is the `KeyError` that gives the retry message. An answer with an output log holds only assistant or function messages. |
| ChatReply.ShapeKeepsReplies | backend/app.py:80-103 | When every converted message has a content and an assistant or function role, they are all returned as they are, with the output log. |
| ChatReply.ChatKeepsReplyMessages | backend/app.py:78-103 | The messages are exactly the converted ones with role assistant or function, in order. The output log is every converted message's content, in order. |
| ChatReply.NoValidReplyIff | backend/app.py:84-96 | The "抱歉，没有得到有效的回复" reply is given exactly when no converted message has role assistant or function. |
| ChatReply.ChatHasOutputLog | backend/app.py:78-103 | When every element converts, every converted message has a content and a role, and one has an assistant or function role, the answer has status 200 and carries the output log. |
| ChatReply.RawReplyBecomesFieldTexts | backend/app.py:43-48 | The raw completion `run_conversation` returns after a tool round is iterated item by item. Each item becomes an assistant message holding its `str()`. |
| Stations.MissingArgumentsAreEmpty | backend/station.py:14-17 | A missing `target_station` or `queried_variable` reads as the empty string. A present one reads as given. |
| Stations.SelectStations | backend/station.py:46-50 | An empty target keeps every station in order. A non-empty target keeps exactly the stations whose queried field equals it, and the selection is never longer than the input. A missing field never equals a non-empty target. |
| Stations.SelectStationsKeepsOrder | backend/station.py:48-50 | Selection is order preserving: selecting from a concatenation concatenates the selections. |
| Stations.FindReservoirStations | backend/station.py:10-68 | A request error or empty content gives the error shape. Empty content gives "No content received from API". A decoded body without `data` gives an empty success. A decoded station list gives exactly the stations selected by the target and the queried variable. |
| Stations.FindReservoirData | backend/station.py:70-100 | Status 500 happens exactly when the request or the decoding raises, and carries that error text. Otherwise the decoded body is passed through unchanged. |
| Forecast.CalculateChanges | backend/predict_lightgbm.py:10-12 | There is one change fewer than levels (none for an empty series). Change i is level i+1 minus level i. |
| Forecast.CreateDataset | backend/predict_lightgbm.py:14-25 | There are max(0, n - lookback - forecast + 1) windows. Window i pairs `data[i..i+lookback)` with the next `forecast` values, so together they form one contiguous slice. Consecutive inputs overlap, shifted by one. |
| Forecast.PredictLevels | backend/predict_lightgbm.py:113-119 | There are as many levels as predicted changes. Level k is the last known level plus the first k+1 changes. |
| Forecast.ChangesTelescope | backend/predict_lightgbm.py:10-12 | The first level plus the first k+1 first differences is level k+1. |
| Forecast.ReconstructRoundTrip | backend/predict_lightgbm.py:107-119 | Reconstructing from a series' first level with its own first differences gives back the rest of the series. |
| Forecast.FourteenLevelsGiveThirteenFeatures | backend/predict_lightgbm.py:100-111 | As written, fourteen levels give thirteen features, while the training windows are fourteen wide. |
| Forecast.Features | backend/predict_lightgbm.py:100-111 | Corrected: there are `Lookback` (14) features, as wide as a training window. Feature i is the change between the two consecutive levels ending i+1 days into the last fifteen. |
| Forecast.FeaturesAreLastChanges | backend/predict_lightgbm.py:12-24 | The corrected features are exactly the last 14 first differences of the whole series, laid out like a training window. |
| Forecast.PredictNextWeek | backend/predict_lightgbm.py:100-119 | Corrected: fewer than 15 levels, or a model that fails, gives no prediction. Otherwise the returned changes are the model's output on the corrected features. The levels are rebuilt from the last known level. |

## Left out

- **Networking, Flask and the JSON codec:**
  - HTTP requests (urllib, urllib3, the OpenAI client) and `getPageData` are left out. Their outcomes are inputs.
  - Flask routing, CORS, `jsonify` and the `/chat` request-body parsing are left out. The route logic starts from the conversation's outcome.
  - JSON encoding and decoding are abstract functions.
- **Not modelled:**
  - logging, printing and colorama output;
  - the frontend JavaScript;
  - the LightGBM and sklearn training in `train_predict`.
- **Python reflection:** `inspect.signature` and `inspect.getdoc` become explicit parameter declarations.
- **Fuzzy matching:** `difflib.get_close_matches` is an uninterpreted matcher. Where a property needs it, the matcher is assumed to return nothing or one of its candidates.
- ToolRegistry.GetTools: the result is a value, so the deep-copy isolation of `get_tools` holds trivially and is not stated separately. The listing is a sequence in the dict's insertion order rather than a dict.
- ToolRegistry.Validate: destructuring a metadata tuple whose length is not two raises `ValueError`. This is modelled as its own error, `MetadataArity`.
- DataTools.PageCountIsCeiling: `int(total/size)` goes through a float in Python. The model uses exact division, so very large totals, where float rounding matters, are not modelled.
- DataTools.GetStationsInfo: modelled with the corrected page list. The as-written tool is `GetStationsInfoAsWritten`. `getPageData` returning an unbound `data` after a failed request is an `UnboundLocalError` caught by the tool. It is modelled as a failed fetch, giving `[]`.
- DataTools.CleanNames: a non-string `库名` always fails. In Python a list- or dict-valued name makes `in` a membership test that raises nothing unless it holds the marker, so such a record would be kept. `Other` does not tell containers apart from numbers.
- Values.Show: Python's `repr` quoting inside `str()` of a function-call dict is approximated with single quotes and no escaping.
- Conversation.Step: a reply whose kind does not match the `stream` flag becomes an error outcome carrying the `AttributeError` text. The exact failure of iterating a non-stream response is not modelled further.
- ChatReply.ConvertMessage: `model_dump` is reduced to the keys `role`, `content` and `function_call`. The other fields an SDK message dumps, such as `tool_calls`, are not modelled.
- Conversation.RunConversation: the SDK message appended to the list is modelled with role, content and function call only. `model_dump` of other SDK fields is not modelled.
- Conversation.Drive: `fuel` is the remaining `max_retry` count. It is a real bound of the loop, not an approximation.
- Stations.FindReservoirStations: a `data['data']` that is not a list of objects is not modelled. The decoded body is abstracted to malformed, no `data` key, or a list of station records.
- Forecast.PredictNextWeek: the model oracle returns a sequence of changes. The source's single-output regressor would return one number per row. `train_predict` raises `ValueError` at backend/predict_lightgbm.py:54-55, because flattening the seven-wide targets makes `y_train` seven times as long as `X_train`. The corrected features need 15 levels, while the documented interface takes 14. Training on 13-wide windows would keep 14 levels; that alternative is not modelled. Lookback and forecast are natural numbers, so negative window sizes are not modelled.

## Findings

| source | as written | input that shows it | evidently intended | confidence | as-written member | corrected member |
|---|---|---|---|---|---|---|
| backend/tool_register.py:150-152 | After the first request for page 1, the loop requests pages `range(1, pages)`. | totalNum 150, pageSize 100: pages 2, requests are page 1 and page 1 again, and rows 101-150 are never fetched | request pages 2 to `pages` | high (not executed) | DataTools.PaginationCounterexample | DataTools.ExtraPagesCoverAll |
| backend/GLM_api2.py:84-85 | `return response` sits inside the `for _ in range(max_retry)` body, so the first tool round re-queries once and returns the raw completion object, not the message list. | any reply with a function call, with max_retry 5: one dispatch, and the caller receives the raw completion | loop up to `max_retry` rounds, returning the message list at the final answer | high (not executed) | Conversation.ToolRoundNeverReturnsHistory | Conversation.IntendedToolThenFinal |
| backend/predict_lightgbm.py:100-111 | The features are the first differences of the 14 levels given. | 14 levels give 13 features, while the model is trained on 14-wide windows | the parameter name `last_14_days_levels` and the `__main__` call (line 129) both give 14 levels, so the fix that keeps that interface trains on 13-wide change windows. The model instead keeps the 14-wide training windows and takes the last 14 changes, which needs 15 levels. | medium (not executed) | Forecast.FourteenLevelsGiveThirteenFeatures | Forecast.FeaturesAreLastChanges |

=== FILE: chat_reply.dfy ===
/** Reply shaping of the `/chat` route in `backend/app.py`: `convert_message`
    turns each element of what `run_conversation` returned into a dict with
    a fresh `id`, then `chat` keeps the assistant and function messages in
    order, with fixed fallback messages for the empty and failing cases.

    `uuid.uuid4()` is the fresh-id supply `idOf` (the i-th converted element
    gets `idOf(i)`), and `json.dumps(..., ensure_ascii=False, indent=2)` is
    the abstract `dumps`. */
module ChatReply {
  import opened Wrappers
  import opened Values
  import opened Messages
  import Seqs
  import Conversation

  /** `message.model_dump()` for the fields of an SDK message the model keeps. */
  function ModelDump(m: SdkMessage): Record
  {
    map[
      "role" := Str(m.role),
      "content" := (match m.content case Some(c) => Str(c) case None => Null),
      "function_call" := (match m.functionCall case Some(fc) => Call(fc.name, fc.arguments) case None => Null)
    ]
  }

  /** The content given to a function-result dict. */
  function FunctionResultText(fields: Record, dumps: Value -> string): string
  {
    "函数 " + Show(Get(fields, "name", Null)) + " 的查询结果:\n" + dumps(Get(fields, "content", Null))
  }

  /** `convert_message(msg)` with `id` as the fresh uuid; `Failure` is the
      AttributeError of an object whose `function_call` attribute is `None`. */
  function ConvertMessage(msg: Msg, id: string, dumps: Value -> string): (r: Result<Record, string>)
    ensures r.Success? ==> "id" in r.value && r.value["id"] == Str(id)
    ensures r.Success? && !msg.Dict? ==> "role" in r.value && "content" in r.value
    ensures r.Failure? <==> msg.PlainObject? && msg.functionCall == Present(None)
    ensures msg.Sdk? ==>
      && r.Success?
      && r.value.Keys == {"id", "role", "content", "function_call"}
      && r.value["role"] == Str(msg.m.role)
      && r.value["content"] == (if msg.m.content.Some? then Str(msg.m.content.value) else Null)
      && r.value["function_call"] == (if msg.m.functionCall.Some?
                                      then Call(msg.m.functionCall.value.name, msg.m.functionCall.value.arguments)
                                      else Null)
    ensures msg.Dict? && Get(msg.fields, "role", Null) == Str("function") ==>
      r == Success(map["id" := Str(id), "role" := Str("assistant"), "content" := Str(FunctionResultText(msg.fields, dumps))])
    ensures msg.Dict? && Get(msg.fields, "role", Null) != Str("function") ==>
      && r.Success?
      && r.value.Keys == msg.fields.Keys + {"id"}
      && (forall k :: k in msg.fields && k != "id" ==> r.value[k] == msg.fields[k])
    ensures msg.Opaque? ==> r == Success(map["id" := Str(id), "role" := Str("assistant"), "content" := Str(msg.text)])
  {
    match msg
    case Sdk(m) => Success(ModelDump(m)["id" := Str(id)])
    case PlainObject(role, content, fc, text) =>
      var base := map[
        "id" := Str(id),
        "role" := (match role case Present(v) => v case Absent => Str("assistant")),
        "content" := (match content case Present(v) => v case Absent => Str(text))
      ];
      (match fc
       case Absent => Success(base)
       case Present(None) => Failure("'NoneType' object has no attribute 'name'")
       case Present(Some(call)) => Success(base["function_call" := Call(call.name, call.arguments)]))
    case Dict(fields) =>
      if Get(fields, "role", Null) == Str("function") then
        Success(map["id" := Str(id), "role" := Str("assistant"), "content" := Str(FunctionResultText(fields, dumps))])
      else Success(fields["id" := Str(id)])
    case Opaque(text) =>
      Success(map["id" := Str(id), "role" := Str("assistant"), "content" := Str(text)])
  }

  /** `[convert_message(msg) for msg in items]`; `None` when any conversion raises. */
  function ConvertAll(items: seq<Msg>, idOf: nat -> string, dumps: Value -> string): (r: Option<seq<Record>>)
    ensures r.Some? <==> forall i :: 0 <= i < |items| ==> ConvertMessage(items[i], idOf(i), dumps).Success?
    ensures r.Some? ==>
      && |r.value| == |items|
      && forall i :: 0 <= i < |items| ==> Success(r.value[i]) == ConvertMessage(items[i], idOf(i), dumps)
  {
    if forall i :: 0 <= i < |items| ==> ConvertMessage(items[i], idOf(i), dumps).Success?
    then Some(seq(|items|, i requires 0 <= i < |items| && ConvertMessage(items[i], idOf(i), dumps).Success?
                 => ConvertMessage(items[i], idOf(i), dumps).value))
    else None
  }

  /** `msg['role'] in ['assistant', 'function']`. */
  predicate IsReplyRole(m: Record)
  {
    "role" in m && (m["role"] == Str("assistant") || m["role"] == Str("function"))
  }

  /** The JSON body and status of a `/chat` answer. */
  datatype ChatResponse = ChatResponse(
    status: int,
    success: bool,
    messages: seq<Record>,
    outputLog: Option<seq<Value>>,
    error: Option<string>)

  const ApologyText := "抱歉，我暂时无法处理您的请求，请稍后再试。"
  const NoValidReplyText := "抱歉，没有得到有效的回复"
  const RetryText := "消息处理过程中出现错误，请重试。"

  /** A fallback `{'role': 'assistant', 'content': text}` (these carry no `id`). */
  function Fallback(text: string): ChatResponse
  {
    ChatResponse(200, true, [map["role" := Str("assistant"), "content" := Str(text)]], None, None)
  }

  /** What `for msg in response_messages` iterates over. */
  function Items(result: Conversation.RunResult): seq<Msg>
  {
    match result
    case History(ms) => ms
    case Raw(reply) =>
      (match reply
       case Completion(_, items) => items
       case Streamed(_, items) => items
       case Unreachable(_) => [])
    case _ => []
  }

  /** The `chat` handler after `run_conversation` returned or raised. */
  function Chat(result: Conversation.RunResult, idOf: nat -> string, dumps: Value -> string): (r: ChatResponse)
    ensures result.Raised? ==> r == ChatResponse(500, false, [], None, Some(result.error))
    ensures result.NoResult? ==> r == Fallback(ApologyText)
    ensures r.success <==> !result.Raised?
    ensures r.success ==> |r.messages| > 0
    ensures r.outputLog.Some? ==> forall m :: m in r.messages ==> IsReplyRole(m)
    ensures (result.History? || result.Raw?) && ConvertAll(Items(result), idOf, dumps).None? ==> r == Fallback(RetryText)
  {
    match result
    case Raised(e) => ChatResponse(500, false, [], None, Some(e))
    case NoResult => Fallback(ApologyText)
    case _ =>
      match ConvertAll(Items(result), idOf, dumps)
      case None => Fallback(RetryText)
      case Some(converted) => Shape(converted)
  }

  /** The rest of `chat` once every element converted: the output log, the
      role filter, and the fallbacks (a missing `content` or `role` key is
      the `KeyError` that gives the retry message). */
  function Shape(converted: seq<Record>): (r: ChatResponse)
    ensures r.success && |r.messages| > 0
    ensures r.outputLog.Some? ==> forall m :: m in r.messages ==> IsReplyRole(m)
    ensures (exists i :: 0 <= i < |converted| && ("content" !in converted[i] || "role" !in converted[i]))
      ==> r == Fallback(RetryText)
  {
    if !(forall i :: 0 <= i < |converted| ==> "content" in converted[i]) then Fallback(RetryText)
    else
      var log := seq(|converted|, i requires 0 <= i < |converted| && "content" in converted[i] => converted[i]["content"]);
      if !(forall i :: 0 <= i < |converted| ==> "role" in converted[i]) then Fallback(RetryText)
      else
        var filtered := Seqs.Filter(IsReplyRole, converted);
        if filtered == [] then Fallback(NoValidReplyText)
        else ChatResponse(200, true, filtered, Some(log), None)
  }

  /** When the reply carries messages of its own, they are exactly the
      converted messages with an assistant or function role, in their order,
      and the output log holds every converted message's content in order. */
  lemma ChatKeepsReplyMessages(result: Conversation.RunResult, idOf: nat -> string, dumps: Value -> string)
    requires Chat(result, idOf, dumps).outputLog.Some?
    ensures ConvertAll(Items(result), idOf, dumps).Some?
    ensures var converted := ConvertAll(Items(result), idOf, dumps).value;
      var r := Chat(result, idOf, dumps);
      && |r.outputLog.value| == |converted|
      && (forall i :: 0 <= i < |converted| ==> r.outputLog.value[i] == converted[i]["content"])
      && (forall m :: m in r.messages <==> m in converted && IsReplyRole(m))
      && r.messages == Seqs.Filter(IsReplyRole, converted)
  {
    var converted := ConvertAll(Items(result), idOf, dumps).value;
    forall m ensures m in Seqs.Filter(IsReplyRole, converted) <==> m in converted && IsReplyRole(m) {
      Seqs.FilterMembership(IsReplyRole, converted, m);
    }
  }

  /** Conversely, when every element converts, every converted message has a
      content and a role, and at least one has a reply role, the answer
      carries the reply messages and the output log. */
  lemma ChatHasOutputLog(result: Conversation.RunResult, idOf: nat -> string, dumps: Value -> string)
    requires result.History? || result.Raw?
    requires ConvertAll(Items(result), idOf, dumps).Some?
    requires var c := ConvertAll(Items(result), idOf, dumps).value;
      && (forall i :: 0 <= i < |c| ==> "content" in c[i] && "role" in c[i])
      && exists i :: 0 <= i < |c| && IsReplyRole(c[i])
    ensures Chat(result, idOf, dumps).outputLog.Some?
    ensures Chat(result, idOf, dumps).status == 200
  {
    var c := ConvertAll(Items(result), idOf, dumps).value;
    Seqs.FilterEmpty(IsReplyRole, c);
  }

  /** Converted messages that all carry a content and a reply role are
      answered as they are. */
  lemma ShapeKeepsReplies(converted: seq<Record>)
    requires forall i :: 0 <= i < |converted| ==> "content" in converted[i] && IsReplyRole(converted[i])
    requires |converted| > 0
    ensures Shape(converted).messages == converted && Shape(converted).outputLog.Some?
  {
    Seqs.FilterKeepsAll(IsReplyRole, converted);
  }

  /** The "no valid reply" fallback is given exactly when conversion went
      through but no converted message has an assistant or function role. */
  lemma NoValidReplyIff(result: Conversation.RunResult, idOf: nat -> string, dumps: Value -> string)
    requires result.History? || result.Raw?
    requires ConvertAll(Items(result), idOf, dumps).Some?
    requires var c := ConvertAll(Items(result), idOf, dumps).value;
      forall i :: 0 <= i < |c| ==> "content" in c[i] && "role" in c[i]
    ensures var c := ConvertAll(Items(result), idOf, dumps).value;
      Chat(result, idOf, dumps) == Fallback(NoValidReplyText) <==> forall i :: 0 <= i < |c| ==> !IsReplyRole(c[i])
  {
    var c := ConvertAll(Items(result), idOf, dumps).value;
    Seqs.FilterEmpty(IsReplyRole, c);
    if Seqs.Filter(IsReplyRole, c) != [] {
      assert Chat(result, idOf, dumps).outputLog.Some?;
    }
  }

  /** The assistant message `convert_message` makes of a value it can only print. */
  function TextMessage(id: string, text: string): Record
  {
    map["id" := Str(id), "role" := Str("assistant"), "content" := Str(text)]
  }

  /** Values that are neither objects nor dicts convert one by one to
      assistant messages holding their text, each with its own fresh id. */
  lemma ConvertTexts(texts: seq<string>, idOf: nat -> string, dumps: Value -> string)
    ensures var items := seq(|texts|, i requires 0 <= i < |texts| => Opaque(texts[i]));
      ConvertAll(items, idOf, dumps) == Some(seq(|texts|, i requires 0 <= i < |texts| => TextMessage(idOf(i), texts[i])))
  {
    var items := seq(|texts|, i requires 0 <= i < |texts| => Opaque(texts[i]));
    var expected := seq(|texts|, i requires 0 <= i < |texts| => TextMessage(idOf(i), texts[i]));
    assert forall i :: 0 <= i < |items| ==> ConvertMessage(items[i], idOf(i), dumps) == Success(expected[i]);
    var c := ConvertAll(items, idOf, dumps).value;
    assert forall i :: 0 <= i < |c| ==> c[i] == expected[i];
    assert c == expected;
  }

  /** The raw completion `run_conversation` hands back after a tool round is
      iterated field by field: every `(field, value)` pair becomes an
      assistant message whose content is the pair's text. */
  lemma RawReplyBecomesFieldTexts(message: SdkMessage, texts: seq<string>, idOf: nat -> string, dumps: Value -> string)
    requires |texts| > 0
    ensures var items := seq(|texts|, i requires 0 <= i < |texts| => Opaque(texts[i]));
      var r := Chat(Conversation.Raw(Conversation.Completion(message, items)), idOf, dumps);
      && r.success
      && |r.messages| == |texts|
      && forall i :: 0 <= i < |texts| ==> r.messages[i] == TextMessage(idOf(i), texts[i])
  {
    var items := seq(|texts|, i requires 0 <= i < |texts| => Opaque(texts[i]));
    var result := Conversation.Raw(Conversation.Completion(message, items));
    assert Items(result) == items;
    ConvertTexts(texts, idOf, dumps);
    var c := seq(|texts|, i requires 0 <= i < |texts| => TextMessage(idOf(i), texts[i]));
    assert Chat(result, idOf, dumps) == Shape(c);
    ShapeKeepsReplies(c);
  }
}

=== FILE: conversation.dfy ===
/** `run_conversation` of `backend/GLM_api2.py`: a small state machine over an
    append-only message list, driven by an abstract completion endpoint.

    The endpoint, the JSON decoder of tool arguments and the tool registry
    with its tool invocation are parameters (`Env`). The model follows the
    code as written: the loop body returns on every path of its first
    iteration, so after a tool round the function re-queries once and hands
    back the raw reply instead of the message list. `RunConversationIntended`
    is the corrected loop. */
module Conversation {
  import opened Wrappers
  import opened Values
  import opened Messages
  import ToolRegistry

  /** One streamed chunk: `choices[0].delta.content`, `choices[0].finish_reason`
      and `choices[0].delta.function_call`. */
  datatype Chunk = Chunk(content: Option<string>, finishReason: Option<string>, functionCall: Option<FunctionCall>)

  /** What `client.chat.completions.create` gives back. `items` is what
      iterating the returned object yields (for a `ChatCompletion`, its
      `(field, value)` pairs). */
  datatype Reply =
    | Unreachable(error: string)
    | Completion(message: SdkMessage, items: seq<Msg>)
    | Streamed(chunks: seq<Chunk>, items: seq<Msg>)

  /** The keyword arguments of one completion request. */
  datatype Request = Request(model: string, messages: seq<Msg>, stream: bool, functions: Option<seq<ToolRegistry.ToolDef>>)

  /** The collaborators `run_conversation` calls out to. `parseJson` is
      `json.loads`, failing with the text of its `JSONDecodeError`. */
  datatype Env = Env(
    endpoint: Request -> Reply,
    registry: ToolRegistry.Registry,
    invoke: (ToolRegistry.Tool, Value) -> ToolRegistry.CallOutcome,
    parseJson: string -> Result<Value, string>)

  /** A tool dispatch that happened: its name and decoded arguments. */
  datatype Dispatched = Dispatched(name: string, args: Value)

  /** What a call of `run_conversation` returns or raises. */
  datatype RunResult =
    | NoResult                      // the implicit `return None`
    | History(messages: seq<Msg>)   // `return params["messages"]`
    | Raw(reply: Reply)             // `return response`
    | Raised(error: string)         // an exception propagates to the caller

  /** The result together with every request sent and every tool dispatched, in order. */
  datatype Run = Run(result: RunResult, requests: seq<Request>, calls: seq<Dispatched>)

  const ModelName := "chatglm3"

  /** `params`: the `functions` key is present only when `functions` is truthy. */
  function MakeRequest(msgs: seq<Msg>, stream: bool, functions: seq<ToolRegistry.ToolDef>): (r: Request)
    ensures r.model == ModelName && r.messages == msgs && r.stream == stream
    ensures r.functions.Some? <==> |functions| > 0
    ensures r.functions.Some? ==> r.functions.value == functions
  {
    Request(ModelName, msgs, stream, if |functions| > 0 then Some(functions) else None)
  }

  /** How one handled reply ends. */
  datatype Turn =
    | Final(messages: seq<Msg>)                     // a `return params["messages"]`
    | ToolRound(messages: seq<Msg>, call: Dispatched) // a tool dispatched, then on to the re-query
    | Exhausted(messages: seq<Msg>)                 // a stream without a finish marker
    | Raise(error: string)

  /** Decode the arguments, dispatch, and append the assistant message and the
      function result (source lines 30-41 and 65-81). */
  function ToolTurn(fc: FunctionCall, assistant: Msg, msgs: seq<Msg>, env: Env): (t: Turn)
    ensures t.Raise? <==> env.parseJson(fc.arguments).Failure?
    ensures t.Raise? ==> t.error == env.parseJson(fc.arguments).error
    ensures t.ToolRound? <==> env.parseJson(fc.arguments).Success?
    ensures t.ToolRound? ==>
      && t.call == Dispatched(fc.name, env.parseJson(fc.arguments).value)
      && t.messages == msgs + [assistant, FunctionResult(fc.name,
                                 ToolRegistry.Dispatch(env.registry, fc.name, t.call.args, env.invoke))]
  {
    match env.parseJson(fc.arguments)
    case Failure(e) => Raise(e)
    case Success(args) =>
      var result := ToolRegistry.Dispatch(env.registry, fc.name, args, env.invoke);
      ToolRound(msgs + [assistant, FunctionResult(fc.name, result)], Dispatched(fc.name, args))
  }

  /** The non-streaming branch for one reply. */
  function HandleCompletion(message: SdkMessage, msgs: seq<Msg>, env: Env): (t: Turn)
    ensures message.functionCall.None? ==> t == Final(msgs + [Sdk(message)])
    ensures t.ToolRound? ==>
      && message.functionCall.Some?
      && t.call.name == message.functionCall.value.name
      && t.messages == msgs + [Sdk(message), FunctionResult(t.call.name,
                                 ToolRegistry.Dispatch(env.registry, t.call.name, t.call.args, env.invoke))]
    ensures t.Raise? <==> message.functionCall.Some? && env.parseJson(message.functionCall.value.arguments).Failure?
    ensures message.functionCall.Some? && env.parseJson(message.functionCall.value.arguments).Success? ==>
      && t.ToolRound?
      && env.parseJson(message.functionCall.value.arguments) == Success(t.call.args)
  {
    match message.functionCall
    case None => Final(msgs + [Sdk(message)])
    case Some(fc) => ToolTurn(fc, Sdk(message), msgs, env)
  }

  /** `chunk.choices[0].delta.content or ""`. */
  function ContentOf(c: Chunk): string
  {
    c.content.GetOr("")
  }

  /** The in-order concatenation of the chunks' contents. */
  function StreamText(chunks: seq<Chunk>): string
  {
    if |chunks| == 0 then "" else ContentOf(chunks[0]) + StreamText(chunks[1..])
  }

  predicate IsFinish(c: Chunk)
  {
    c.finishReason == Some("stop") || c.finishReason == Some("function_call")
  }

  /** The index of the first chunk carrying a finish marker the loop reacts
      to, or `|chunks|` when there is none. */
  function FirstFinish(chunks: seq<Chunk>): (k: nat)
    ensures k <= |chunks|
    ensures k < |chunks| ==> IsFinish(chunks[k])
    ensures forall j :: 0 <= j < k ==> !IsFinish(chunks[j])
  {
    if |chunks| == 0 then 0
    else if IsFinish(chunks[0]) then 0
    else 1 + FirstFinish(chunks[1..])
  }

  /** The AttributeError of `None.model_dump()` on a `function_call` chunk without a call. */
  const NoCallText := "'NoneType' object has no attribute 'model_dump'"

  /** The chunk loop: `output` accumulates the contents; the first `stop`
      appends the accumulated reply and returns; the first `function_call`
      dispatches and breaks out. */
  function ScanStream(chunks: seq<Chunk>, output: string, msgs: seq<Msg>, env: Env): (t: Turn)
    ensures var k := FirstFinish(chunks);
      && (t.Exhausted? <==> k == |chunks|)
      && (t.Exhausted? ==> t.messages == msgs)
      && (k < |chunks| && chunks[k].finishReason == Some("stop") ==> t.Final?)
      && (t.Final? ==>
            && k < |chunks| && chunks[k].finishReason == Some("stop")
            && t.messages == msgs + [AssistantText(output + StreamText(chunks[..k + 1]))])
      && (t.ToolRound? ==>
            && k < |chunks| && chunks[k].finishReason == Some("function_call")
            && chunks[k].functionCall.Some?
            && t.call.name == chunks[k].functionCall.value.name
            && env.parseJson(chunks[k].functionCall.value.arguments) == Success(t.call.args)
            && |t.messages| == |msgs| + 2
            && t.messages[..|msgs| + 1] == msgs + [AssistantText(output + StreamText(chunks[..k + 1]))]
            && t.messages[|msgs| + 1] == FunctionResult(t.call.name,
                 ToolRegistry.Dispatch(env.registry, t.call.name, t.call.args, env.invoke)))
      && (k < |chunks| && chunks[k].finishReason == Some("function_call") ==>
            && (chunks[k].functionCall.None? ==> t == Raise(NoCallText))
            && (chunks[k].functionCall.Some? ==>
                  match env.parseJson(chunks[k].functionCall.value.arguments)
                  case Failure(e) => t == Raise(e)
                  case Success(_) => t.ToolRound?))
    decreases |chunks|
  {
    if |chunks| == 0 then Exhausted(msgs)
    else
      var c := chunks[0];
      var out := output + ContentOf(c);
      assert StreamText(chunks[..1]) == ContentOf(c) by {
        assert chunks[..1][1..] == [];
      }
      if c.finishReason == Some("stop") then
        Final(msgs + [AssistantText(out)])
      else if c.finishReason == Some("function_call") then
        match c.functionCall
        case None => Raise(NoCallText)
        case Some(fc) =>
          var t := ToolTurn(fc, AssistantText(out), msgs, env);
          assert t.ToolRound? ==> t.messages[..|msgs| + 1] == msgs + [AssistantText(out)];
          t
      else
        var t := ScanStream(chunks[1..], out, msgs, env);
        var k := FirstFinish(chunks[1..]);
        assert k < |chunks[1..]| ==> chunks[..k + 2] == [c] + chunks[1..][..k + 1];
        assert k < |chunks[1..]| ==> StreamText(chunks[..k + 2]) == ContentOf(c) + StreamText(chunks[1..][..k + 1]);
        assert k < |chunks[1..]| ==>
          out + StreamText(chunks[1..][..k + 1]) == output + (ContentOf(c) + StreamText(chunks[1..][..k + 1]));
        t
  }

  /** One pass of the loop body over a reply. A reply of the wrong shape for
      the `stream` flag fails with the AttributeError Python raises. */
  function Step(reply: Reply, msgs: seq<Msg>, stream: bool, env: Env): (t: Turn)
    ensures reply.Unreachable? ==> t == Raise(reply.error)
    ensures reply.Completion? && stream ==> t.Raise?
    ensures reply.Streamed? && !stream ==> t.Raise?
    ensures t.Final? ==> |t.messages| == |msgs| + 1 && t.messages[..|msgs|] == msgs
    ensures t.ToolRound? ==> |t.messages| == |msgs| + 2 && t.messages[..|msgs|] == msgs
    ensures t.Exhausted? ==> t.messages == msgs && reply.Streamed? && stream
  {
    match reply
    case Unreachable(e) => Raise(e)
    case Completion(m, _) =>
      if stream then Raise("'tuple' object has no attribute 'choices'")
      else HandleCompletion(m, msgs, env)
    case Streamed(chunks, _) =>
      if stream then ScanStream(chunks, "", msgs, env)
      else Raise("'Stream' object has no attribute 'choices'")
  }

  /** `response = client.chat.completions.create(**params)` as a result. */
  function Requery(reply: Reply): RunResult
  {
    if reply.Unreachable? then Raised(reply.error) else Raw(reply)
  }

  /** `run_conversation(query, stream, functions, messages, max_retry)` as written. */
  function RunConversation(query: string, stream: bool, functions: seq<ToolRegistry.ToolDef>,
                           history: seq<Msg>, maxRetry: int, env: Env): (run: Run)
    ensures 1 <= |run.requests| <= 2 && |run.calls| < |run.requests|
    ensures run.requests[0].messages == history + [UserMessage(query)]
    ensures run.requests[0].functions.Some? <==> |functions| > 0
  {
    var msgs := history + [UserMessage(query)];
    var req := MakeRequest(msgs, stream, functions);
    var reply := env.endpoint(req);
    if reply.Unreachable? then Run(Raised(reply.error), [req], [])
    else if maxRetry <= 0 then Run(NoResult, [req], [])
    else
      match Step(reply, msgs, stream, env)
      case Final(m) => Run(History(m), [req], [])
      case Raise(e) => Run(Raised(e), [req], [])
      case ToolRound(m, call) =>
        var req' := MakeRequest(m, stream, functions);
        Run(Requery(env.endpoint(req')), [req, req'], [call])
      case Exhausted(m) =>
        var req' := MakeRequest(m, stream, functions);
        Run(Requery(env.endpoint(req')), [req, req'], [])
  }

  /** Whatever `max_retry` is, at most one tool is dispatched and at most two
      requests are sent. */
  lemma AtMostOneDispatch(query: string, stream: bool, functions: seq<ToolRegistry.ToolDef>,
                          history: seq<Msg>, maxRetry: int, env: Env)
    ensures |RunConversation(query, stream, functions, history, maxRetry, env).calls| <= 1
  {
  }

  /** With `max_retry <= 0` the loop body never runs and the result is `None`
      (the first request is still sent). */
  lemma NonPositiveRetryGivesNone(query: string, stream: bool, functions: seq<ToolRegistry.ToolDef>,
                                  history: seq<Msg>, maxRetry: int, env: Env)
    requires maxRetry <= 0
    requires !env.endpoint(MakeRequest(history + [UserMessage(query)], stream, functions)).Unreachable?
    ensures RunConversation(query, stream, functions, history, maxRetry, env).result == NoResult
    ensures |RunConversation(query, stream, functions, history, maxRetry, env).requests| == 1
  {
  }

  /** A returned message list is the caller's history, the user turn, and
      exactly one assistant reply. */
  lemma HistoryIsAppendOnly(query: string, stream: bool, functions: seq<ToolRegistry.ToolDef>,
                            history: seq<Msg>, maxRetry: int, env: Env)
    requires RunConversation(query, stream, functions, history, maxRetry, env).result.History?
    ensures var m := RunConversation(query, stream, functions, history, maxRetry, env).result.messages;
      && |m| == |history| + 2
      && m[..|history|] == history
      && m[|history|] == UserMessage(query)
      && (m[|history| + 1].Sdk? || m[|history| + 1] == AssistantText(m[|history| + 1].fields["content"].s))
  {
    var msgs := history + [UserMessage(query)];
    var reply := env.endpoint(MakeRequest(msgs, stream, functions));
    var t := Step(reply, msgs, stream, env);
    assert t.Final?;
    if reply.Streamed? {
      var k := FirstFinish(reply.chunks);
      assert t.messages == msgs + [AssistantText(StreamText(reply.chunks[..k + 1]))] by {
        assert "" + StreamText(reply.chunks[..k + 1]) == StreamText(reply.chunks[..k + 1]);
      }
    }
  }

  /** Non-streaming tool round: the assistant message and the function result
      are appended in that order, the augmented list is sent once more, and
      that reply is handed back raw. */
  lemma NonStreamToolRound(query: string, functions: seq<ToolRegistry.ToolDef>,
                           history: seq<Msg>, maxRetry: int, env: Env,
                           message: SdkMessage, items: seq<Msg>, args: Value)
    requires maxRetry > 0
    requires env.endpoint(MakeRequest(history + [UserMessage(query)], false, functions)) == Completion(message, items)
    requires message.functionCall.Some?
    requires env.parseJson(message.functionCall.value.arguments) == Success(args)
    ensures var run := RunConversation(query, false, functions, history, maxRetry, env);
      var name := message.functionCall.value.name;
      && run.calls == [Dispatched(name, args)]
      && |run.requests| == 2
      && run.requests[1].messages == history + [UserMessage(query), Sdk(message),
           FunctionResult(name, ToolRegistry.Dispatch(env.registry, name, args, env.invoke))]
      && run.result == Requery(env.endpoint(run.requests[1]))
  {
    var msgs := history + [UserMessage(query)];
    assert msgs + [Sdk(message), FunctionResult(message.functionCall.value.name,
             ToolRegistry.Dispatch(env.registry, message.functionCall.value.name, args, env.invoke))]
        == history + [UserMessage(query), Sdk(message),
             FunctionResult(message.functionCall.value.name,
               ToolRegistry.Dispatch(env.registry, message.functionCall.value.name, args, env.invoke))];
  }

  /** Non-streaming final answer: the reply's own SDK message is appended
      after the user message and the list is returned, after one request
      and no dispatch. */
  lemma NonStreamFinal(query: string, functions: seq<ToolRegistry.ToolDef>,
                       history: seq<Msg>, maxRetry: int, env: Env,
                       message: SdkMessage, items: seq<Msg>)
    requires maxRetry > 0
    requires env.endpoint(MakeRequest(history + [UserMessage(query)], false, functions)) == Completion(message, items)
    requires message.functionCall.None?
    ensures var run := RunConversation(query, false, functions, history, maxRetry, env);
      && run.result == History(history + [UserMessage(query), Sdk(message)])
      && run.calls == []
      && |run.requests| == 1
  {
    assert history + [UserMessage(query)] + [Sdk(message)] == history + [UserMessage(query), Sdk(message)];
  }

  /** Malformed tool arguments: the decoding error propagates and nothing is
      dispatched or re-sent. */
  lemma MalformedArgumentsPropagate(query: string, functions: seq<ToolRegistry.ToolDef>,
                                    history: seq<Msg>, maxRetry: int, env: Env,
                                    message: SdkMessage, items: seq<Msg>, err: string)
    requires maxRetry > 0
    requires env.endpoint(MakeRequest(history + [UserMessage(query)], false, functions)) == Completion(message, items)
    requires message.functionCall.Some?
    requires env.parseJson(message.functionCall.value.arguments) == Failure(err)
    ensures RunConversation(query, false, functions, history, maxRetry, env) ==
      Run(Raised(err), [MakeRequest(history + [UserMessage(query)], false, functions)], [])
  {
  }

  /** Streaming: on the first `stop`, the reply appended is the in-order
      concatenation of every chunk's content up to and including that chunk. */
  lemma StreamStopAppendsConcatenation(query: string, functions: seq<ToolRegistry.ToolDef>,
                                       history: seq<Msg>, maxRetry: int, env: Env,
                                       chunks: seq<Chunk>, items: seq<Msg>, k: nat)
    requires maxRetry > 0
    requires env.endpoint(MakeRequest(history + [UserMessage(query)], true, functions)) == Streamed(chunks, items)
    requires k < |chunks| && chunks[k].finishReason == Some("stop")
    requires forall j :: 0 <= j < k ==> !IsFinish(chunks[j])
    ensures RunConversation(query, true, functions, history, maxRetry, env).result ==
      History(history + [UserMessage(query), AssistantText(StreamText(chunks[..k + 1]))])
  {
    var msgs := history + [UserMessage(query)];
    FirstFinishIs(chunks, k);
    var t := ScanStream(chunks, "", msgs, env);
    assert "" + StreamText(chunks[..k + 1]) == StreamText(chunks[..k + 1]);
    assert t.Final?;
  }

  /** Streaming tool round: the accumulated text is appended as the assistant
      message, then the function result; the augmented list is sent once
      more and that reply is handed back raw. */
  lemma StreamToolRound(query: string, functions: seq<ToolRegistry.ToolDef>,
                        history: seq<Msg>, maxRetry: int, env: Env,
                        chunks: seq<Chunk>, items: seq<Msg>, k: nat, fc: FunctionCall, args: Value)
    requires maxRetry > 0
    requires env.endpoint(MakeRequest(history + [UserMessage(query)], true, functions)) == Streamed(chunks, items)
    requires k < |chunks| && chunks[k].finishReason == Some("function_call") && chunks[k].functionCall == Some(fc)
    requires forall j :: 0 <= j < k ==> !IsFinish(chunks[j])
    requires env.parseJson(fc.arguments) == Success(args)
    ensures var run := RunConversation(query, true, functions, history, maxRetry, env);
      && run.calls == [Dispatched(fc.name, args)]
      && |run.requests| == 2
      && run.requests[1].messages == history + [UserMessage(query), AssistantText(StreamText(chunks[..k + 1])),
           FunctionResult(fc.name, ToolRegistry.Dispatch(env.registry, fc.name, args, env.invoke))]
      && run.result == Requery(env.endpoint(run.requests[1]))
  {
    var msgs := history + [UserMessage(query)];
    FirstFinishIs(chunks, k);
    var t := ScanStream(chunks, "", msgs, env);
    assert t.ToolRound?;
    assert t.call == Dispatched(fc.name, args);
    var expected := history + [UserMessage(query), AssistantText(StreamText(chunks[..k + 1])),
      FunctionResult(fc.name, ToolRegistry.Dispatch(env.registry, fc.name, args, env.invoke))];
    assert "" + StreamText(chunks[..k + 1]) == StreamText(chunks[..k + 1]);
    assert t.messages[..|msgs| + 1] == expected[..|msgs| + 1];
    assert t.messages == t.messages[..|msgs| + 1] + [t.messages[|msgs| + 1]];
    assert t.messages == expected;
  }

  /** `FirstFinish` is the first index carrying a marker. */
  lemma {:induction false} FirstFinishIs(chunks: seq<Chunk>, k: nat)
    requires k < |chunks| && IsFinish(chunks[k])
    requires forall j :: 0 <= j < k ==> !IsFinish(chunks[j])
    ensures FirstFinish(chunks) == k
  {
    if k > 0 {
      FirstFinishIs(chunks[1..], k - 1);
    }
  }

  // ---------------------------------------------------------------------------
  // The loop as evidently intended

  /** The loop with the re-query inside it and without the early return:
      up to `fuel` replies are handled, and a tool round goes back to the top
      with the reply to the augmented list. Falling off the end returns `None`. */
  function Drive(reply: Reply, msgs: seq<Msg>, stream: bool, functions: seq<ToolRegistry.ToolDef>,
                 fuel: nat, env: Env, requests: seq<Request>, calls: seq<Dispatched>): (run: Run)
    ensures |run.calls| <= |calls| + fuel
    ensures |run.requests| <= |requests| + fuel
    ensures |run.requests| >= |requests| && run.requests[..|requests|] == requests
    ensures |run.calls| >= |calls| && run.calls[..|calls|] == calls
    decreases fuel
  {
    if fuel == 0 then Run(NoResult, requests, calls)
    else
      match Step(reply, msgs, stream, env)
      case Final(m) => Run(History(m), requests, calls)
      case Raise(e) => Run(Raised(e), requests, calls)
      case ToolRound(m, call) =>
        var req := MakeRequest(m, stream, functions);
        var next := env.endpoint(req);
        if next.Unreachable? then Run(Raised(next.error), requests + [req], calls + [call])
        else
          var run := Drive(next, m, stream, functions, fuel - 1, env, requests + [req], calls + [call]);
          assert (requests + [req])[..|requests|] == requests;
          assert (calls + [call])[..|calls|] == calls;
          run
      case Exhausted(m) =>
        var req := MakeRequest(m, stream, functions);
        var next := env.endpoint(req);
        if next.Unreachable? then Run(Raised(next.error), requests + [req], calls)
        else
          var run := Drive(next, m, stream, functions, fuel - 1, env, requests + [req], calls);
          assert (requests + [req])[..|requests|] == requests;
          run
  }

  /** `run_conversation` with the loop as evidently intended. */
  function RunConversationIntended(query: string, stream: bool, functions: seq<ToolRegistry.ToolDef>,
                                   history: seq<Msg>, maxRetry: int, env: Env): (run: Run)
    ensures |run.calls| <= if maxRetry > 0 then maxRetry else 0
    ensures 1 <= |run.requests| <= 1 + if maxRetry > 0 then maxRetry else 0
    ensures run.requests[0].messages == history + [UserMessage(query)]
  {
    var msgs := history + [UserMessage(query)];
    var req := MakeRequest(msgs, stream, functions);
    var reply := env.endpoint(req);
    if reply.Unreachable? then Run(Raised(reply.error), [req], [])
    else Drive(reply, msgs, stream, functions, if maxRetry > 0 then maxRetry else 0, env, [req], [])
  }

  /** As written, a conversation in which a tool was dispatched never returns
      the message list: the tool result and any final answer to it are lost
      to the caller. */
  lemma ToolRoundNeverReturnsHistory(query: string, stream: bool, functions: seq<ToolRegistry.ToolDef>,
                                     history: seq<Msg>, maxRetry: int, env: Env)
    requires |RunConversation(query, stream, functions, history, maxRetry, env).calls| > 0
    ensures !RunConversation(query, stream, functions, history, maxRetry, env).result.History?
  {
  }

  /** Corrected: a tool call answered by a final reply returns the whole
      list: history, user turn, the call, its result and the final answer. */
  lemma IntendedToolThenFinal(query: string, functions: seq<ToolRegistry.ToolDef>,
                              history: seq<Msg>, maxRetry: int, env: Env,
                              first: SdkMessage, final: SdkMessage, items1: seq<Msg>, items2: seq<Msg>, args: Value)
    requires maxRetry >= 2
    requires env.endpoint(MakeRequest(history + [UserMessage(query)], false, functions)) == Completion(first, items1)
    requires first.functionCall.Some? && final.functionCall.None?
    requires env.parseJson(first.functionCall.value.arguments) == Success(args)
    requires var name := first.functionCall.value.name;
      env.endpoint(MakeRequest(history + [UserMessage(query), Sdk(first),
        FunctionResult(name, ToolRegistry.Dispatch(env.registry, name, args, env.invoke))], false, functions))
      == Completion(final, items2)
    ensures var name := first.functionCall.value.name;
      RunConversationIntended(query, false, functions, history, maxRetry, env).result
      == History(history + [UserMessage(query), Sdk(first),
           FunctionResult(name, ToolRegistry.Dispatch(env.registry, name, args, env.invoke)), Sdk(final)])
  {
    var name := first.functionCall.value.name;
    var msgs := history + [UserMessage(query)];
    var req := MakeRequest(msgs, false, functions);
    var result := FunctionResult(name, ToolRegistry.Dispatch(env.registry, name, args, env.invoke));
    var m := msgs + [Sdk(first), result];
    assert m == history + [UserMessage(query), Sdk(first), result];
    assert Step(Completion(first, items1), msgs, false, env) == ToolRound(m, Dispatched(name, args));
    var req' := MakeRequest(m, false, functions);
    assert env.endpoint(req') == Completion(final, items2);
    assert Step(Completion(final, items2), m, false, env) == Final(m + [Sdk(final)]);
    var run2 := Drive(Completion(final, items2), m, false, functions, maxRetry - 1, env, [req, req'], [Dispatched(name, args)]);
    assert run2.result == History(m + [Sdk(final)]);
    assert Drive(Completion(first, items1), msgs, false, functions, maxRetry, env, [req], []) == run2;
    assert m + [Sdk(final)] == history + [UserMessage(query), Sdk(first), result, Sdk(final)];
  }
}

=== FILE: data_tools.dfy ===
/** The record post-processing inside the three data tools of
    `backend/tool_register.py` (`get_stations_info`, `get_rain_info`,
    `get_reservoir_info`): page counting and page concatenation, the
    "filter only when the fuzzy match found something" rule, the dam-marker
    stripping of reservoir names and the units appended to the first record.

    The HTTP requests are oracle inputs: the decoded first response (or `None`
    when the request, the JSON decoding or a key lookup failed) and a page
    fetcher. `difflib.get_close_matches` is the uninterpreted `bestMatch`.
    Every failure inside a tool is caught by its `except` clauses and turns
    into the empty list. */
module DataTools {
  import opened Wrappers
  import opened Values
  import Seqs
  import PyText

  // ---------------------------------------------------------------------------
  // Pagination (get_stations_info)

  /** Python's `int(a / b)` on integers: true division, then truncation toward zero. */
  function TruncDiv(a: int, b: int): int
    requires b != 0
  {
    var q := (if a < 0 then -a else a) / (if b < 0 then -b else b);
    if (a < 0) == (b < 0) then q else -q
  }

  /** Python's `a % b` on integers: the remainder takes the sign of `b`. */
  function PyMod(a: int, b: int): int
    requires b != 0
  {
    var m := a % b;
    if b < 0 && m != 0 then m + b else m
  }

  /** `pages = int(total/size) if total%size == 0 else int(total/size) + 1`;
      `None` is the ZeroDivisionError of a zero page size. */
  function PageCount(total: int, size: int): (r: Option<int>)
    ensures r.None? <==> size == 0
  {
    if size == 0 then None
    else if PyMod(total, size) == 0 then Some(TruncDiv(total, size))
    else Some(TruncDiv(total, size) + 1)
  }

  /** For a record count and a positive page size the page count is the
      ceiling of their quotient: enough pages for every record, and no page
      more than needed. */
  lemma PageCountIsCeiling(total: int, size: int)
    requires total >= 0 && size > 0
    ensures PageCount(total, size).Some?
    ensures var p := PageCount(total, size).value;
      p >= 0 && p * size >= total && (p > 0 ==> (p - 1) * size < total)
  {
    var q, m := total / size, total % size;
    assert total == q * size + m && 0 <= m < size;
    assert q >= 0;
    assert PyMod(total, size) == m && TruncDiv(total, size) == q;
    var p := PageCount(total, size).value;
    if m == 0 {
      assert p == q;
      assert (p - 1) * size == p * size - size;
    } else {
      assert p == q + 1;
      assert p * size == q * size + size;
      assert (p - 1) * size == q * size;
    }
  }

  /** The pages `get_stations_info` requests after its first request, which
      asks for `pageNum=1`: `range(1, pages)` when `pages > 1`. */
  function ExtraPagesAsWritten(pages: int): seq<int>
  {
    if pages > 1 then Seqs.Range(1, pages) else []
  }

  /** With two or more pages, the pages requested as written start by asking
      for page 1 a second time and never ask for the last page. */
  lemma ExtraPagesAsWrittenMissesLast(pages: int)
    requires pages >= 2
    ensures ExtraPagesAsWritten(pages)[0] == 1
    ensures pages !in ExtraPagesAsWritten(pages)
  {
  }

  /** 150 records at 100 per page: two pages, yet the rows requested are
      page 1, then page 1 again; page 2 is never requested. */
  lemma PaginationCounterexample()
    ensures PageCount(150, 100) == Some(2)
    ensures [1] + ExtraPagesAsWritten(2) == [1, 1]
  {
    assert ExtraPagesAsWritten(2) == [1];
  }

  /** The pages to request after page 1: 2, 3, ..., pages. */
  function ExtraPages(pages: int): (r: seq<int>)
    ensures [1] + r == Seqs.Range(1, if pages > 1 then pages + 1 else 2)
    ensures forall i :: 0 <= i < |r| ==> 2 <= r[i] <= pages
  {
    Seqs.Range(2, pages + 1)
  }

  /** With the corrected page list, the page numbers requested are 1, ..., pages,
      each once, and together they hold at least `total` records. */
  lemma ExtraPagesCoverAll(total: int, size: int)
    requires total > 0 && size > 0
    ensures var p := PageCount(total, size).value;
      && [1] + ExtraPages(p) == Seqs.Range(1, p + 1)
      && |[1] + ExtraPages(p)| * size >= total
  {
    PageCountIsCeiling(total, size);
  }

  /** The rows of `pages`, fetched one after the other and concatenated in
      order; `None` when any fetch fails. */
  function FetchedRows(pages: seq<int>, fetch: int -> Option<seq<Record>>): Option<seq<Record>>
  {
    if |pages| == 0 then Some([])
    else match fetch(pages[0])
      case None => None
      case Some(rows) =>
        match FetchedRows(pages[1..], fetch)
        case None => None
        case Some(rest) => Some(rows + rest)
  }

  /** The loop `for page in ...: data = [*data, *getPageData(api_url, page)]`.
      A failed fetch makes `getPageData` raise (its `data` is unbound), which
      the tool's `except Exception` turns into an empty answer. */
  function Paginate(data: seq<Record>, pages: seq<int>, fetch: int -> Option<seq<Record>>): (r: Option<seq<Record>>)
    ensures r.Some? <==> forall i :: 0 <= i < |pages| ==> fetch(pages[i]).Some?
    ensures r.Some? <==> FetchedRows(pages, fetch).Some?
    ensures r.Some? ==> r.value == data + FetchedRows(pages, fetch).value
    decreases |pages|
  {
    if |pages| == 0 then Some(data)
    else match fetch(pages[0])
      case None => None
      case Some(rows) =>
        var r := Paginate(data + rows, pages[1..], fetch);
        assert forall i :: 1 <= i < |pages| ==> pages[i] == pages[1..][i - 1];
        assert r.Some? ==> r.value == data + (rows + FetchedRows(pages[1..], fetch).value);
        r
  }

  // ---------------------------------------------------------------------------
  // Fuzzy matching and filtering

  /** `difflib.get_close_matches` keeps to its contract: a match, when there
      is one, is one of the candidates. */
  ghost predicate MatcherWellBehaved(bestMatch: (string, seq<Value>) -> Option<Value>)
  {
    forall q, cs :: bestMatch(q, cs).Some? ==> bestMatch(q, cs).value in cs
  }

  /** `[d[key] for d in data]`; `None` is the KeyError of a record without `key`. */
  function FieldValues(data: seq<Record>, key: string): (r: Option<seq<Value>>)
    ensures r.Some? <==> forall i :: 0 <= i < |data| ==> key in data[i]
    ensures r.Some? ==> |r.value| == |data| && forall i :: 0 <= i < |data| ==> r.value[i] == data[i][key]
  {
    if forall i :: 0 <= i < |data| ==> key in data[i]
    then Some(seq(|data|, i requires 0 <= i < |data| => data[i][key]))
    else None
  }

  /** `if q != None: q = find_best_match(q, [d[key] for d in data])`: the
      resolved name (`None` when there was no query or no close match), or
      the outer `None` of a KeyError. */
  function Resolve(query: Option<string>, data: seq<Record>, key: string,
                   bestMatch: (string, seq<Value>) -> Option<Value>): (r: Option<Option<Value>>)
    ensures query.None? ==> r == Some(None)
    ensures query.Some? ==> (r.None? <==> exists i :: 0 <= i < |data| && key !in data[i])
    ensures MatcherWellBehaved(bestMatch) && r.Some? && r.value.Some? ==>
      exists i :: 0 <= i < |data| && HasField(key, r.value.value, data[i])
  {
    match query
    case None => Some(None)
    case Some(q) =>
      match FieldValues(data, key)
      case None => None
      case Some(cands) => Some(bestMatch(q, cands))
  }

  /** Record `d` carries `v` under `key`. */
  predicate HasField(key: string, v: Value, d: Record)
  {
    key in d && d[key] == v
  }

  /** The filter on `key` lets `d` through: there is no match to filter by,
      or `d` carries the match. */
  predicate Admits(key: string, m: Option<Value>, d: Record)
  {
    m.None? || HasField(key, m.value, d)
  }

  /** `if m != None: data = [d for d in data if m == d[key]]`. */
  function KeepMatching(data: seq<Record>, key: string, m: Option<Value>): (r: seq<Record>)
    ensures m.None? ==> r == data
    ensures m.Some? ==> forall d :: d in r <==> d in data && HasField(key, m.value, d)
    ensures forall d :: d in r <==> d in data && Admits(key, m, d)
    ensures |r| <= |data|
  {
    match m
    case None => data
    case Some(v) =>
      var keep := d => HasField(key, v, d);
      assert forall d :: d in Seqs.Filter(keep, data) <==> d in data && HasField(key, v, d) by {
        forall d ensures d in Seqs.Filter(keep, data) <==> d in data && keep(d) {
          Seqs.FilterMembership(keep, data, d);
        }
      }
      Seqs.Filter(keep, data)
  }

  /** The filter keeps the records' order: filtering a concatenation is
      concatenating the filtered parts. */
  lemma KeepMatchingKeepsOrder(a: seq<Record>, b: seq<Record>, key: string, m: Option<Value>)
    ensures KeepMatching(a + b, key, m) == KeepMatching(a, key, m) + KeepMatching(b, key, m)
  {
    if m.Some? {
      Seqs.FilterConcat(d => HasField(key, m.value, d), a, b);
    }
  }

  /** One record is kept once when it passes the filter and dropped
      otherwise; with `KeepMatchingKeepsOrder` this fixes the result of any
      input, record by record. */
  lemma KeepMatchingSingle(d: Record, key: string, m: Option<Value>)
    ensures KeepMatching([d], key, m) == if Admits(key, m, d) then [d] else []
  {
    assert d in [d];
  }

  /** A name the well-behaved matcher found among the records' own field
      values always keeps at least one record. */
  lemma MatchedNameKeepsARecord(query: string, data: seq<Record>, key: string,
                                bestMatch: (string, seq<Value>) -> Option<Value>)
    requires MatcherWellBehaved(bestMatch)
    requires Resolve(Some(query), data, key, bestMatch).Some?
    requires Resolve(Some(query), data, key, bestMatch).value.Some?
    ensures |KeepMatching(data, key, Resolve(Some(query), data, key, bestMatch).value)| > 0
  {
    var cands := FieldValues(data, key).value;
    var m := bestMatch(query, cands).value;
    assert m in cands;
    var i :| 0 <= i < |cands| && cands[i] == m;
    assert HasField(key, m, data[i]);
    assert data[i] in KeepMatching(data, key, Some(m));
  }

  // ---------------------------------------------------------------------------
  // The three tools

  /** The decoded first page of the stations API: `data.rows`, `data.totalNum`, `data.pageSize`. */
  datatype Page = Page(rows: seq<Record>, totalNum: int, pageSize: int)

  /** The station-name step of `get_stations_info` on the gathered rows:
      resolve the name, then keep the records carrying it. */
  function FilterByStation(stationName: Option<string>, rows: seq<Record>,
                           bestMatch: (string, seq<Value>) -> Option<Value>): (r: seq<Record>)
    ensures Resolve(stationName, rows, "站名", bestMatch).None? ==> r == []
    ensures stationName.None? ==> r == rows
    ensures Resolve(stationName, rows, "站名", bestMatch).Some? ==>
      forall d :: d in r <==> d in rows && Admits("站名", Resolve(stationName, rows, "站名", bestMatch).value, d)
    ensures Resolve(stationName, rows, "站名", bestMatch).Some? ==>
      r == KeepMatching(rows, "站名", Resolve(stationName, rows, "站名", bestMatch).value)
  {
    match Resolve(stationName, rows, "站名", bestMatch)
    case None => []
    case Some(m) => KeepMatching(rows, "站名", m)
  }

  /** `get_stations_info` after its first request, parameterised by the
      list of further pages it asks for once there are two or more pages. */
  function GetStationsInfoWith(extraPages: int -> seq<int>, stationName: Option<string>, first: Option<Page>,
                               fetch: int -> Option<seq<Record>>,
                               bestMatch: (string, seq<Value>) -> Option<Value>): (r: seq<Record>)
    ensures first.None? ==> r == []
    ensures first.Some? && first.value.pageSize == 0 ==> r == []
    ensures first.Some? && first.value.pageSize != 0 ==>
      var pages := PageCount(first.value.totalNum, first.value.pageSize).value;
      var extra := if pages > 1 then extraPages(pages) else [];
      && (FetchedRows(extra, fetch).None? ==> r == [])
      && (FetchedRows(extra, fetch).Some? ==>
            r == FilterByStation(stationName, first.value.rows + FetchedRows(extra, fetch).value, bestMatch))
  {
    match first
    case None => []
    case Some(page) =>
      match PageCount(page.totalNum, page.pageSize)
      case None => []
      case Some(pages) =>
        var data := if pages > 1 then Paginate(page.rows, extraPages(pages), fetch) else Some(page.rows);
        assert pages <= 1 ==> FetchedRows([], fetch) == Some([]) && page.rows + [] == page.rows;
        match data
        case None => []
        case Some(rows) => FilterByStation(stationName, rows, bestMatch)
  }

  /** `get_stations_info` as written: the further pages are `range(1, pages)`. */
  function GetStationsInfoAsWritten(stationName: Option<string>, first: Option<Page>,
                                    fetch: int -> Option<seq<Record>>,
                                    bestMatch: (string, seq<Value>) -> Option<Value>): (r: seq<Record>)
    ensures first.None? || first.value.pageSize == 0 ==> r == []
    ensures first.Some? && first.value.pageSize != 0 ==>
      var pages := PageCount(first.value.totalNum, first.value.pageSize).value;
      && (FetchedRows(ExtraPagesAsWritten(pages), fetch).None? ==> r == [])
      && (FetchedRows(ExtraPagesAsWritten(pages), fetch).Some? ==>
            r == FilterByStation(stationName, first.value.rows + FetchedRows(ExtraPagesAsWritten(pages), fetch).value, bestMatch))
  {
    GetStationsInfoWith(ExtraPagesAsWritten, stationName, first, fetch, bestMatch)
  }

  /** `get_stations_info` with the corrected page list 2, ..., pages. */
  function GetStationsInfo(stationName: Option<string>, first: Option<Page>,
                           fetch: int -> Option<seq<Record>>,
                           bestMatch: (string, seq<Value>) -> Option<Value>): (r: seq<Record>)
    ensures first.None? ==> r == []
    ensures first.Some? && first.value.pageSize == 0 ==> r == []
    ensures stationName.None? && first.Some? && 0 <= first.value.totalNum <= first.value.pageSize && first.value.pageSize > 0
      ==> r == first.value.rows
    ensures first.Some? && first.value.pageSize != 0 ==>
      var pages := PageCount(first.value.totalNum, first.value.pageSize).value;
      && (FetchedRows(ExtraPages(pages), fetch).None? ==> r == [])
      && (FetchedRows(ExtraPages(pages), fetch).Some? ==>
            r == FilterByStation(stationName, first.value.rows + FetchedRows(ExtraPages(pages), fetch).value, bestMatch))
  {
    SinglePageUnfiltered(stationName, first, fetch, bestMatch);
    GetStationsInfoWith(ExtraPages, stationName, first, fetch, bestMatch)
  }

  /** With no station name and at most one page of records, the first
      page's rows come back as they are. */
  lemma SinglePageUnfiltered(stationName: Option<string>, first: Option<Page>,
                             fetch: int -> Option<seq<Record>>,
                             bestMatch: (string, seq<Value>) -> Option<Value>)
    ensures first.Some? && first.value.pageSize != 0 ==>
      PageCount(first.value.totalNum, first.value.pageSize).value <= 1 ==>
      ExtraPages(PageCount(first.value.totalNum, first.value.pageSize).value) == []
    ensures stationName.None? && first.Some? && 0 <= first.value.totalNum <= first.value.pageSize && first.value.pageSize > 0
      ==> GetStationsInfoWith(ExtraPages, stationName, first, fetch, bestMatch) == first.value.rows
  {
    if stationName.None? && first.Some? && 0 <= first.value.totalNum <= first.value.pageSize && first.value.pageSize > 0 {
      PageCountIsCeiling(first.value.totalNum, first.value.pageSize);
      var p := PageCount(first.value.totalNum, first.value.pageSize).value;
      assert p <= 1;
      assert FetchedRows([], fetch) == Some([]);
      assert first.value.rows + [] == first.value.rows;
    }
  }

  /** Between one and two full pages of records: the page count is 2. */
  lemma TwoPages(total: int, size: int)
    requires size > 0 && size < total <= 2 * size
    ensures PageCount(total, size) == Some(2)
  {
    PageCountIsCeiling(total, size);
    var p := PageCount(total, size).value;
    if p <= 1 {
      MulMonotone(p, 1, size);
    } else if p >= 3 {
      MulMonotone(2, p - 1, size);
    }
  }

  /** Multiplying by a positive size keeps the order. */
  lemma MulMonotone(a: int, b: int, size: int)
    requires a <= b && size > 0
    ensures a * size <= b * size
  {
  }

  /** As written, two pages' worth of stations come back as the first page
      twice over (the API's page 1 is asked for again), and the records of
      page 2 never appear; the corrected tool returns page 1 then page 2. */
  lemma StationsSecondPage(rows: seq<Record>, rows2: seq<Record>, total: int, size: int,
                           fetch: int -> Option<seq<Record>>,
                           bestMatch: (string, seq<Value>) -> Option<Value>)
    requires size > 0 && size < total <= 2 * size
    requires fetch(1) == Some(rows) && fetch(2) == Some(rows2)
    ensures GetStationsInfoAsWritten(None, Some(Page(rows, total, size)), fetch, bestMatch) == rows + rows
    ensures GetStationsInfo(None, Some(Page(rows, total, size)), fetch, bestMatch) == rows + rows2
  {
    TwoPages(total, size);
    assert ExtraPagesAsWritten(2) == [1];
    assert ExtraPages(2) == [2];
    assert FetchedRows([1], fetch) == Some(rows + []);
    assert FetchedRows([2], fetch) == Some(rows2 + []);
  }

  /** `if admi_area == '': admi_area = None`. */
  function NormalizeArea(area: Option<string>): (r: Option<string>)
    ensures r.None? <==> area.None? || area == Some("")
    ensures r.Some? ==> r == area
  {
    if area == Some("") then None else area
  }

  /** The post-processing of `get_rain_info` on the decoded `data` list: both
      names are resolved against the full list, then the area filter and the
      station filter run in that order. */
  function GetRainInfo(stationName: Option<string>, admiArea: Option<string>, data: Option<seq<Record>>,
                       bestMatch: (string, seq<Value>) -> Option<Value>): (r: seq<Record>)
    ensures data.None? ==> r == []
    ensures data.Some? ==> forall d :: d in r ==> d in data.value
    ensures data.Some? && NormalizeArea(admiArea).None? && stationName.None? ==> r == data.value
    ensures data.Some? ==>
      var a := Resolve(NormalizeArea(admiArea), data.value, "行政区", bestMatch);
      var s := Resolve(stationName, data.value, "站名", bestMatch);
      && (a.None? || s.None? ==> r == [])
      && (a.Some? && s.Some? ==>
            && (forall d :: d in r <==> d in data.value && Admits("行政区", a.value, d) && Admits("站名", s.value, d))
            && r == KeepMatching(KeepMatching(data.value, "行政区", a.value), "站名", s.value))
  {
    match data
    case None => []
    case Some(rows) =>
      var area := NormalizeArea(admiArea);
      match Resolve(area, rows, "行政区", bestMatch)
      case None => []
      case Some(a) =>
        match Resolve(stationName, rows, "站名", bestMatch)
        case None => []
        case Some(s) =>
          var byArea := KeepMatching(rows, "行政区", a);
          KeepMatching(byArea, "站名", s)
  }

  const DamMarker := "(坝上)"
  const DamMarkerFullWidth := "（坝上）"

  /** The renaming loop of `get_reservoir_info`: each marker, when present,
      is removed from the name. */
  function StripDamMarkers(name: string): (r: string)
    ensures |r| <= |name|
    ensures forall c :: c in r ==> c in name
  {
    var n1 := if PyText.Contains(name, DamMarker) then PyText.Replace(name, DamMarker, "") else name;
    PyText.ReplaceByEmptyShrinks(name, DamMarker);
    PyText.ReplaceByEmptyShrinks(n1, DamMarkerFullWidth);
    if PyText.Contains(n1, DamMarkerFullWidth) then PyText.Replace(n1, DamMarkerFullWidth, "") else n1
  }

  /** A reservoir name without brackets loses a trailing marker of either
      width, and is left alone when it has none. */
  lemma StripDamMarkersRemovesSuffix(base: string)
    requires '(' !in base && '（' !in base
    ensures StripDamMarkers(base) == base
    ensures StripDamMarkers(base + DamMarker) == base
    ensures StripDamMarkers(base + DamMarkerFullWidth) == base
  {
    PyText.NoFirstCharNoMatch(base, DamMarker);
    PyText.NoFirstCharNoMatch(base, DamMarkerFullWidth);
    var s := base + DamMarker;
    assert s[|base|..|base| + |DamMarker|] == DamMarker;
    PyText.ContainsAt(s, DamMarker, |base|);
    PyText.ReplaceTrailing(base, DamMarker, "");
    assert base + "" == base;
    var t := base + DamMarkerFullWidth;
    assert '(' !in t;
    PyText.NoFirstCharNoMatch(t, DamMarker);
    assert t[|base|..|base| + |DamMarkerFullWidth|] == DamMarkerFullWidth;
    PyText.ContainsAt(t, DamMarkerFullWidth, |base|);
    PyText.ReplaceTrailing(base, DamMarkerFullWidth, "");
  }

  /** A marker anywhere in a name without other brackets is removed, and the
      text on both sides of it is kept. */
  lemma StripDamMarkersRemovesInner(a: string, b: string)
    requires '(' !in a && '(' !in b && '（' !in a && '（' !in b
    ensures StripDamMarkers(a + DamMarker + b) == a + b
    ensures StripDamMarkers(a + DamMarkerFullWidth + b) == a + b
  {
    var s := a + DamMarker + b;
    assert s[|a|..|a| + |DamMarker|] == DamMarker;
    PyText.ContainsAt(s, DamMarker, |a|);
    PyText.ReplaceSingle(a, DamMarker, b, "");
    assert a + "" + b == a + b;
    PyText.NoFirstCharNoMatch(a + b, DamMarkerFullWidth);
    var t := a + DamMarkerFullWidth + b;
    assert '(' !in t;
    PyText.NoFirstCharNoMatch(t, DamMarker);
    assert t[|a|..|a| + |DamMarkerFullWidth|] == DamMarkerFullWidth;
    PyText.ContainsAt(t, DamMarkerFullWidth, |a|);
    PyText.ReplaceSingle(a, DamMarkerFullWidth, b, "");
  }

  /** The renaming loop over all records; `None` is the KeyError of a record
      without `库名` or the TypeError of a non-string name. */
  function CleanNames(data: seq<Record>): (r: Option<seq<Record>>)
    ensures r.Some? <==> forall i :: 0 <= i < |data| ==> "库名" in data[i] && data[i]["库名"].Str?
    ensures r.Some? ==> |r.value| == |data| && forall i :: 0 <= i < |data| ==>
      && r.value[i].Keys == data[i].Keys
      && r.value[i]["库名"] == Str(StripDamMarkers(data[i]["库名"].s))
      && forall k :: k in data[i] && k != "库名" ==> r.value[i][k] == data[i][k]
  {
    if forall i :: 0 <= i < |data| ==> "库名" in data[i] && data[i]["库名"].Str?
    then Some(seq(|data|, i requires 0 <= i < |data| && "库名" in data[i] && data[i]["库名"].Str? =>
                 data[i]["库名" := Str(StripDamMarkers(data[i]["库名"].s))]))
    else None
  }

  /** The fields that get a unit, with their units. */
  const UnitFields: seq<(string, string)> :=
    [("库水位", "米"), ("蓄水量", "亿立方米"), ("入库流速", "米/秒"), ("坝顶高程", "米")]

  /** `d[k] = str(d[k]); d[k] += unit` for each unit field; `None` is the
      KeyError of a missing field. */
  function AddUnits(d: Record, fields: seq<(string, string)>): (r: Option<Record>)
    ensures r.Some? <==> forall j :: 0 <= j < |fields| ==> fields[j].0 in d
    ensures r.Some? ==> r.value.Keys == d.Keys
    ensures r.Some? ==> forall k :: k in d && (forall j :: 0 <= j < |fields| ==> fields[j].0 != k) ==> r.value[k] == d[k]
  {
    if |fields| == 0 then Some(d)
    else if fields[0].0 !in d then None
    else AddUnits(d[fields[0].0 := Str(Show(d[fields[0].0]) + fields[0].1)], fields[1..])
  }

  /** Appending the four units touches exactly the four unit fields, each of
      which becomes its old text followed by its unit. */
  lemma AddUnitsEffect(d: Record)
    requires "库水位" in d && "蓄水量" in d && "入库流速" in d && "坝顶高程" in d
    ensures var r := AddUnits(d, UnitFields);
      && r.Some?
      && r.value.Keys == d.Keys
      && r.value["库水位"] == Str(Show(d["库水位"]) + "米")
      && r.value["蓄水量"] == Str(Show(d["蓄水量"]) + "亿立方米")
      && r.value["入库流速"] == Str(Show(d["入库流速"]) + "米/秒")
      && r.value["坝顶高程"] == Str(Show(d["坝顶高程"]) + "米")
      && forall k :: k in d && k !in {"库水位", "蓄水量", "入库流速", "坝顶高程"} ==> r.value[k] == d[k]
  {
    var d1 := d["库水位" := Str(Show(d["库水位"]) + "米")];
    var d2 := d1["蓄水量" := Str(Show(d["蓄水量"]) + "亿立方米")];
    var d3 := d2["入库流速" := Str(Show(d["入库流速"]) + "米/秒")];
    var d4 := d3["坝顶高程" := Str(Show(d["坝顶高程"]) + "米")];
    assert UnitFields[1..][1..][1..][1..] == [];
    assert AddUnits(d, UnitFields) == AddUnits(d1, UnitFields[1..]);
    assert AddUnits(d1, UnitFields[1..]) == AddUnits(d2, UnitFields[1..][1..]);
    assert AddUnits(d2, UnitFields[1..][1..]) == AddUnits(d3, UnitFields[1..][1..][1..]);
    assert AddUnits(d3, UnitFields[1..][1..][1..]) == Some(d4);
  }

  /** Only the first surviving record gets units; the others pass unchanged. */
  function WithUnits(rows: seq<Record>): (r: Option<seq<Record>>)
    ensures r.Some? ==> |r.value| == |rows| && (|rows| > 0 ==> r.value[1..] == rows[1..])
    ensures r.Some? && |rows| > 0 ==> Some(r.value[0]) == AddUnits(rows[0], UnitFields)
    ensures r.None? <==> |rows| > 0 && AddUnits(rows[0], UnitFields).None?
  {
    if |rows| == 0 then Some([])
    else match AddUnits(rows[0], UnitFields)
      case None => None
      case Some(first) => Some([first] + rows[1..])
  }

  /** The post-processing of `get_reservoir_info` on the decoded `data` list. */
  function GetReservoirInfo(reservoirName: Option<string>, admiArea: Option<string>, data: Option<seq<Record>>,
                            bestMatch: (string, seq<Value>) -> Option<Value>): (r: seq<Record>)
    ensures data.None? ==> r == []
    ensures |r| <= if data.Some? then |data.value| else 0
    ensures data.Some? && CleanNames(data.value).None? ==> r == []
    ensures data.Some? && CleanNames(data.value).Some? ==>
      var rows := CleanNames(data.value).value;
      var a := Resolve(NormalizeArea(admiArea), rows, "行政区", bestMatch);
      var n := Resolve(reservoirName, rows, "库名", bestMatch);
      && (a.None? || n.None? ==> r == [])
      && (a.Some? && n.Some? ==>
            var kept := KeepMatching(KeepMatching(rows, "行政区", a.value), "库名", n.value);
            && (forall d :: d in kept <==> d in rows && Admits("行政区", a.value, d) && Admits("库名", n.value, d))
            && (r == [] <==> kept == [] || AddUnits(kept[0], UnitFields).None?)
            && (r != [] ==> |r| == |kept| && Some(r[0]) == AddUnits(kept[0], UnitFields) && r[1..] == kept[1..]))
  {
    match data
    case None => []
    case Some(raw) =>
      var area := NormalizeArea(admiArea);
      match CleanNames(raw)
      case None => []
      case Some(rows) =>
        match Resolve(area, rows, "行政区", bestMatch)
        case None => []
        case Some(a) =>
          match Resolve(reservoirName, rows, "库名", bestMatch)
          case None => []
          case Some(n) =>
            var kept := KeepMatching(KeepMatching(rows, "行政区", a), "库名", n);
            match WithUnits(kept)
            case None => []
            case Some(out) => out
  }

  /** Units never touch the reservoir name, and records after the first pass
      through unchanged. */
  lemma WithUnitsKeepsName(kept: seq<Record>, n: Value)
    requires WithUnits(kept).Some?
    requires forall d :: d in kept ==> HasField("库名", n, d)
    ensures var r := WithUnits(kept).value;
      && (forall i :: 0 <= i < |r| ==> HasField("库名", n, r[i]))
      && (forall i :: 1 <= i < |r| ==> r[i] in kept)
  {
    var r := WithUnits(kept).value;
    if |r| > 0 {
      assert forall j :: 0 <= j < |UnitFields| ==> UnitFields[j].0 != "库名";
      assert kept[0] in kept;
      assert Some(r[0]) == AddUnits(kept[0], UnitFields);
    }
    forall i | 1 <= i < |r| ensures HasField("库名", n, r[i]) && r[i] in kept {
      assert r[i] == r[1..][i - 1] == kept[1..][i - 1] == kept[i];
    }
  }

  /** Every reservoir record returned after a successful name match carries
      the matched, marker-free name; all but the first are cleaned records
      passed through unchanged. */
  lemma ReservoirResultsMatchName(reservoirName: string, admiArea: Option<string>, raw: seq<Record>,
                                  bestMatch: (string, seq<Value>) -> Option<Value>)
    requires CleanNames(raw).Some?
    requires var rows := CleanNames(raw).value;
      && Resolve(NormalizeArea(admiArea), rows, "行政区", bestMatch).Some?
      && Resolve(Some(reservoirName), rows, "库名", bestMatch).Some?
      && Resolve(Some(reservoirName), rows, "库名", bestMatch).value.Some?
    ensures var rows := CleanNames(raw).value;
      var n := Resolve(Some(reservoirName), rows, "库名", bestMatch).value.value;
      var r := GetReservoirInfo(Some(reservoirName), admiArea, Some(raw), bestMatch);
      && (forall i :: 0 <= i < |r| ==> HasField("库名", n, r[i]))
      && (forall i :: 1 <= i < |r| ==> r[i] in rows)
  {
    var rows := CleanNames(raw).value;
    var a := Resolve(NormalizeArea(admiArea), rows, "行政区", bestMatch).value;
    var n := Resolve(Some(reservoirName), rows, "库名", bestMatch).value.value;
    var byArea := KeepMatching(rows, "行政区", a);
    var kept := KeepMatching(byArea, "库名", Some(n));
    var r := GetReservoirInfo(Some(reservoirName), admiArea, Some(raw), bestMatch);
    assert r == if WithUnits(kept).Some? then WithUnits(kept).value else [];
    assert forall d :: d in kept ==> HasField("库名", n, d) && d in rows;
    if WithUnits(kept).Some? {
      WithUnitsKeepsName(kept, n);
    }
  }
}

=== FILE: forecast.dfy ===
/** The sequence arithmetic of `backend/predict_lightgbm.py`: first
    differences of the water levels, the sliding-window training set, and the
    reconstruction of future levels from predicted changes. Levels are exact
    reals; the gradient-boosted model is the oracle `predict`. */
module Forecast {
  import opened Wrappers
  import Seqs

  /** `create_dataset`'s defaults: 14 days of history predict 7 days ahead. */
  const Lookback: nat := 14
  const Horizon: nat := 7

  /** `calculate_changes(d)`, i.e. `np.diff(d)`. */
  function CalculateChanges(d: seq<real>): (r: seq<real>)
    ensures |r| == if |d| == 0 then 0 else |d| - 1
    ensures forall i :: 0 <= i < |r| ==> r[i] == d[i + 1] - d[i]
  {
    if |d| <= 1 then [] else seq(|d| - 1, i requires 0 <= i < |d| - 1 => d[i + 1] - d[i])
  }

  /** The number of windows, `len(range(len(data) - lookback - forecast + 1))`. */
  function WindowCount(n: nat, lookback: nat, forecast: nat): nat
  {
    if n + 1 > lookback + forecast then n + 1 - lookback - forecast else 0
  }

  /** `create_dataset(data, lookback, forecast)`: window `i` pairs the
      `lookback` values starting at `i` with the `forecast` values after them. */
  method CreateDataset(data: seq<real>, lookback: nat, forecast: nat) returns (xs: seq<seq<real>>, ys: seq<seq<real>>)
    ensures |xs| == |ys| == WindowCount(|data|, lookback, forecast)
    ensures forall i :: 0 <= i < |xs| ==>
      && i + lookback + forecast <= |data|
      && xs[i] == data[i..i + lookback]
      && ys[i] == data[i + lookback..i + lookback + forecast]
      && xs[i] + ys[i] == data[i..i + lookback + forecast]
    ensures lookback > 0 ==> forall i :: 0 <= i < |xs| - 1 ==> xs[i + 1] == xs[i][1..] + [data[i + lookback]]
  {
    xs, ys := [], [];
    var n := WindowCount(|data|, lookback, forecast);
    var i := 0;
    while i < n
      invariant 0 <= i <= n
      invariant |xs| == |ys| == i
      invariant forall j :: 0 <= j < i ==>
        && xs[j] == data[j..j + lookback]
        && ys[j] == data[j + lookback..j + lookback + forecast]
    {
      xs := xs + [data[i..i + lookback]];
      ys := ys + [data[i + lookback..i + lookback + forecast]];
      i := i + 1;
    }
    forall j | 0 <= j < |xs| ensures xs[j] + ys[j] == data[j..j + lookback + forecast] {
      assert data[j..j + lookback + forecast] == data[j..j + lookback] + data[j + lookback..j + lookback + forecast];
    }
    if lookback > 0 {
      forall j | 0 <= j < |xs| - 1 ensures xs[j + 1] == xs[j][1..] + [data[j + lookback]] {
        assert xs[j][1..] == data[j + 1..j + lookback];
      }
    }
  }

  /** The reconstruction loop of `predict_next_week`: start from the last
      known level and add each predicted change; the first entry (the last
      known level) is dropped. */
  method PredictLevels(last: real, changes: seq<real>) returns (levels: seq<real>)
    ensures |levels| == |changes|
    ensures forall k :: 0 <= k < |levels| ==> levels[k] == last + Seqs.Sum(changes[..k + 1])
  {
    var acc := [last];
    var i := 0;
    while i < |changes|
      invariant 0 <= i <= |changes|
      invariant |acc| == i + 1 && acc[0] == last
      invariant forall k :: 1 <= k <= i ==> acc[k] == last + Seqs.Sum(changes[..k])
    {
      assert changes[..i + 1][..i] == changes[..i];
      assert i == 0 ==> changes[..i] == [];
      acc := acc + [acc[i] + changes[i]];
      i := i + 1;
    }
    levels := acc[1..];
    assert forall k :: 0 <= k < |levels| ==> levels[k] == acc[k + 1];
  }

  /** Summing the first differences telescopes: from the first level, the
      first `k + 1` changes lead to level `k + 1`. */
  lemma {:induction false} ChangesTelescope(s: seq<real>, k: nat)
    requires k + 1 < |s|
    ensures s[0] + Seqs.Sum(CalculateChanges(s)[..k + 1]) == s[k + 1]
  {
    var c := CalculateChanges(s);
    assert c[..k + 1][..k] == c[..k];
    if k > 0 {
      ChangesTelescope(s, k - 1);
    } else {
      assert c[..1][..0] == [];
    }
  }

  /** Reconstructing from the first level with the exact changes of a series
      gives back the rest of the series. */
  method ReconstructRoundTrip(s: seq<real>) returns (levels: seq<real>)
    requires |s| >= 1
    ensures levels == s[1..]
  {
    levels := PredictLevels(s[0], CalculateChanges(s));
    forall k | 0 <= k < |levels| ensures levels[k] == s[1..][k] {
      ChangesTelescope(s, k);
    }
  }

  /** The features `predict_next_week` hands to the model as written: the
      changes of all the levels it is given. */
  function FeaturesAsWritten(levels: seq<real>): seq<real>
  {
    CalculateChanges(levels)
  }

  /** Fourteen days of levels give thirteen features, one fewer than the
      fourteen-wide windows the model is trained on. */
  lemma FourteenLevelsGiveThirteenFeatures(levels: seq<real>)
    requires |levels| == 14
    ensures |FeaturesAsWritten(levels)| == 13 != Lookback
  {
  }

  /** The features as evidently intended: the changes over the last
      `Lookback + 1` levels, which are exactly the last `Lookback` changes of
      the whole series, laid out like a training window. */
  function Features(levels: seq<real>): (r: seq<real>)
    requires |levels| >= Lookback + 1
    ensures |r| == Lookback
    ensures forall i :: 0 <= i < Lookback ==> r[i] == levels[|levels| - Lookback + i] - levels[|levels| - 1 - Lookback + i]
  {
    CalculateChanges(levels[|levels| - 1 - Lookback..])
  }

  /** The corrected features are the last `Lookback` changes of the whole
      series, so they line up with the final training window over the changes. */
  lemma FeaturesAreLastChanges(levels: seq<real>)
    requires |levels| >= Lookback + 1
    ensures Features(levels) == CalculateChanges(levels)[|levels| - 1 - Lookback..]
  {
    var r, c := Features(levels), CalculateChanges(levels);
    assert forall i :: 0 <= i < |r| ==> r[i] == c[|levels| - 1 - Lookback + i];
  }

  /** `predict_next_week(model, levels)` with the corrected features: the
      predicted levels and the predicted changes, or `None` when the model
      raises or there are too few levels. */
  method PredictNextWeek(levels: seq<real>, predict: seq<real> -> Option<seq<real>>)
    returns (out: Option<(seq<real>, seq<real>)>)
    ensures |levels| < Lookback + 1 ==> out.None?
    ensures |levels| >= Lookback + 1 ==> (out.Some? <==> predict(Features(levels)).Some?)
    ensures out.Some? ==>
      && out.value.1 == predict(Features(levels)).value
      && |out.value.0| == |out.value.1|
      && forall k :: 0 <= k < |out.value.0| ==> out.value.0[k] == levels[|levels| - 1] + Seqs.Sum(out.value.1[..k + 1])
  {
    if |levels| < Lookback + 1 {
      return None;
    }
    match predict(Features(levels)) {
      case None =>
        return None;
      case Some(changes) =>
        var predicted := PredictLevels(levels[|levels| - 1], changes);
        return Some((predicted, changes));
    }
  }
}

=== FILE: messages.dfy ===
/** Chat messages as the backend handles them. A conversation is a list that
    mixes three kinds of Python values: SDK message objects appended from a
    completion, plain dicts (the caller's history, the user turn, function
    results, streamed replies), and whatever else iterating a raw response
    object yields. */
module Messages {
  import opened Wrappers
  import opened Values

  /** `function_call`: the tool name and its JSON-encoded arguments. */
  datatype FunctionCall = FunctionCall(name: string, arguments: string)

  /** The SDK's `ChatCompletionMessage` (it has `model_dump`). */
  datatype SdkMessage = SdkMessage(role: string, content: Option<string>, functionCall: Option<FunctionCall>)

  /** An attribute of a plain Python object: missing, or present with a value. */
  datatype Attr<T> = Absent | Present(value: T)

  datatype Msg =
    | Sdk(m: SdkMessage)
    | Dict(fields: Record)
      /** An object with `__dict__` but no `model_dump`; `text` is its `str()`. */
    | PlainObject(role: Attr<Value>, content: Attr<Value>, functionCall: Attr<Option<FunctionCall>>, text: string)
      /** Any other value (a tuple, a number); `text` is its `str()`. */
    | Opaque(text: string)

  /** `{"role": "user", "content": query}`. */
  function UserMessage(query: string): Msg
  {
    Dict(map["role" := Str("user"), "content" := Str(query)])
  }

  /** `{"role": "assistant", "content": text}`. */
  function AssistantText(text: string): Msg
  {
    Dict(map["role" := Str("assistant"), "content" := Str(text)])
  }

  /** `{"role": "function", "name": name, "content": result}`. */
  function FunctionResult(name: string, result: string): Msg
  {
    Dict(map["role" := Str("function"), "name" := Str(name), "content" := Str(result)])
  }
}

=== FILE: py_text.dfy ===
/** The few Python `str` operations the backend relies on: `strip()`,
    the substring test `pat in s`, and `s.replace(pat, rep)`. */
module PyText {

  /** Python's `str.isspace()` for a single character. */
  predicate IsSpace(c: char)
  {
    || c == ' ' || c == '\t' || c == '\n' || c == '\r'
    || c == '\U{000B}' || c == '\U{000C}'
    || ('\U{001C}' <= c <= '\U{001F}')
    || c == '\U{0085}' || c == '\U{00A0}' || c == '\U{1680}'
    || ('\U{2000}' <= c <= '\U{200A}')
    || c == '\U{2028}' || c == '\U{2029}' || c == '\U{202F}' || c == '\U{205F}' || c == '\U{3000}'
  }

  /** `s.lstrip()`: drops the leading white space and nothing else. */
  function StripLeft(s: string): (r: string)
    ensures |r| <= |s| && r == s[|s| - |r|..]
    ensures forall i :: 0 <= i < |s| - |r| ==> IsSpace(s[i])
    ensures |r| > 0 ==> !IsSpace(r[0])
  {
    if |s| > 0 && IsSpace(s[0]) then StripLeft(s[1..]) else s
  }

  /** `s.rstrip()`: drops the trailing white space and nothing else. */
  function StripRight(s: string): (r: string)
    ensures |r| <= |s| && r == s[..|r|]
    ensures forall i :: |r| <= i < |s| ==> IsSpace(s[i])
    ensures |r| > 0 ==> !IsSpace(r[|r| - 1])
  {
    if |s| > 0 && IsSpace(s[|s| - 1]) then StripRight(s[..|s| - 1]) else s
  }

  /** `s.strip()`: a contiguous piece of `s` with no white space at either
      end, where everything cut off on either side is white space. */
  function Strip(s: string): (r: string)
    ensures |r| > 0 ==> !IsSpace(r[0]) && !IsSpace(r[|r| - 1])
    ensures exists i {:trigger s[i..]} ::
      && 0 <= i <= |s| - |r|
      && r == s[i..][..|r|]
      && (forall k :: 0 <= k < i ==> IsSpace(s[k]))
      && (forall k :: i + |r| <= k < |s| ==> IsSpace(s[k]))
  {
    var left := StripLeft(s);
    var r := StripRight(left);
    var i := |s| - |left|;
    assert r == s[i..][..|r|];
    assert forall k :: i + |r| <= k < |s| ==> s[k] == left[k - i];
    r
  }

  /** A string without white space at either end is its own strip. */
  lemma StripTrimmed(s: string)
    requires |s| > 0 ==> !IsSpace(s[0]) && !IsSpace(s[|s| - 1])
    ensures Strip(s) == s
  {
  }

  /** Stripping twice is stripping once. */
  lemma StripIdempotent(s: string)
    ensures Strip(Strip(s)) == Strip(s)
  {
    StripTrimmed(Strip(s));
  }

  /** Removing every occurrence of a pattern never adds characters: the
      result is no longer, and each of its characters occurs in `s`. */
  lemma {:induction false} ReplaceByEmptyShrinks(s: string, pat: string)
    requires |pat| > 0
    ensures |Replace(s, pat, "")| <= |s|
    ensures forall c :: c in Replace(s, pat, "") ==> c in s
  {
    if |s| >= |pat| {
      if s[..|pat|] == pat {
        ReplaceByEmptyShrinks(s[|pat|..], pat);
        assert forall c :: c in s[|pat|..] ==> c in s;
      } else {
        ReplaceByEmptyShrinks(s[1..], pat);
        assert forall c :: c in s[1..] ==> c in s;
      }
    }
  }

  /** Python's `pat in s` for strings. */
  predicate Contains(s: string, pat: string)
  {
    |s| >= |pat| && (s[..|pat|] == pat || (|s| > 0 && Contains(s[1..], pat)))
  }

  /** Python's `s.replace(pat, rep)`: every non-overlapping occurrence of the
      non-empty `pat`, scanned left to right, becomes `rep`. */
  function Replace(s: string, pat: string, rep: string): string
    requires |pat| > 0
  {
    if |s| < |pat| then s
    else if s[..|pat|] == pat then rep + Replace(s[|pat|..], pat, rep)
    else [s[0]] + Replace(s[1..], pat, rep)
  }

  /** A string holding a pattern holds its first character. */
  lemma {:induction false} ContainsFirstChar(s: string, pat: string)
    requires |pat| > 0 && Contains(s, pat)
    ensures pat[0] in s
  {
    if s[..|pat|] != pat {
      ContainsFirstChar(s[1..], pat);
    } else {
      assert s[0] == pat[0];
    }
  }

  /** A string without the pattern's first character does not hold the pattern. */
  lemma NoFirstCharNoMatch(s: string, pat: string)
    requires |pat| > 0 && pat[0] !in s
    ensures !Contains(s, pat)
  {
    if Contains(s, pat) {
      ContainsFirstChar(s, pat);
    }
  }

  /** An occurrence at position `k` makes `Contains` true. */
  lemma {:induction false} ContainsAt(s: string, pat: string, k: nat)
    requires k + |pat| <= |s| && s[k..k + |pat|] == pat
    ensures Contains(s, pat)
  {
    if k > 0 {
      assert s[1..][k - 1..k - 1 + |pat|] == s[k..k + |pat|];
      ContainsAt(s[1..], pat, k - 1);
    }
  }

  /** A pattern placed between two strings is contained in the result. */
  lemma ContainsMiddle(a: string, pat: string, b: string)
    ensures Contains(a + pat + b, pat)
  {
    var s := a + pat + b;
    assert s[|a|..|a| + |pat|] == pat;
    ContainsAt(s, pat, |a|);
  }

  /** A string without the pattern's first character is left alone. */
  lemma {:induction false} ReplaceNoFirstChar(s: string, pat: string, rep: string)
    requires |pat| > 0 && pat[0] !in s
    ensures Replace(s, pat, rep) == s
  {
    if |s| >= |pat| {
      assert s[..|pat|][0] == s[0];
      assert s[..|pat|] != pat;
      assert pat[0] !in s[1..] by {
        assert forall c :: c in s[1..] ==> c in s;
      }
      ReplaceNoFirstChar(s[1..], pat, rep);
      assert Replace(s, pat, rep) == [s[0]] + Replace(s[1..], pat, rep);
      assert [s[0]] + s[1..] == s;
    }
  }

  /** A single occurrence of a pattern, with its first character occurring
      nowhere else, is replaced and the text around it is kept. */
  lemma {:induction false} ReplaceSingle(a: string, pat: string, b: string, rep: string)
    requires |pat| > 0 && pat[0] !in a && pat[0] !in b
    ensures Replace(a + pat + b, pat, rep) == a + rep + b
  {
    var s := a + pat + b;
    if |a| == 0 {
      assert s == pat + b;
      assert s[..|pat|] == pat;
      assert s[|pat|..] == b;
      ReplaceNoFirstChar(b, pat, rep);
    } else {
      assert s[..|pat|][0] == a[0] != pat[0];
      assert s[..|pat|] != pat;
      assert s[1..] == a[1..] + pat + b;
      assert pat[0] !in a[1..] by {
        assert forall c :: c in a[1..] ==> c in a;
      }
      ReplaceSingle(a[1..], pat, b, rep);
      assert Replace(s, pat, rep) == [s[0]] + Replace(s[1..], pat, rep);
      assert [a[0]] + (a[1..] + rep + b) == a + rep + b;
    }
  }

  /** Each part of a join stands in it between some prefix and suffix. */
  lemma {:induction false} JoinSplit(parts: seq<string>, sep: string, i: nat) returns (pre: string, post: string)
    requires i < |parts|
    ensures Join(parts, sep) == pre + parts[i] + post
  {
    if |parts| == 1 {
      pre, post := "", "";
    } else if i == 0 {
      pre, post := "", sep + Join(parts[1..], sep);
    } else {
      var pre', post' := JoinSplit(parts[1..], sep, i - 1);
      pre, post := parts[0] + sep + pre', post';
    }
  }

  /** A pattern standing at the very end of `base`, whose first character
      never occurs in `base`, is the only occurrence replaced. */
  lemma {:induction false} ReplaceTrailing(base: string, pat: string, rep: string)
    requires |pat| > 0 && pat[0] !in base
    ensures Replace(base + pat, pat, rep) == base + rep
  {
    var s := base + pat;
    if |base| == 0 {
      assert s == pat;
      assert s[|pat|..] == [];
    } else {
      assert s[..|pat|][0] == base[0] != pat[0];
      assert s[..|pat|] != pat;
      assert s[1..] == base[1..] + pat;
      ReplaceTrailing(base[1..], pat, rep);
      assert Replace(s, pat, rep) == [s[0]] + Replace(s[1..], pat, rep);
      assert [base[0]] + (base[1..] + rep) == base + rep;
    }
  }

  /** `sep.join(parts)`. */
  function Join(parts: seq<string>, sep: string): string
  {
    if |parts| == 0 then ""
    else if |parts| == 1 then parts[0]
    else parts[0] + sep + Join(parts[1..], sep)
  }
}

=== FILE: seqs.dfy ===
/** Generic sequence helpers: order-preserving filtering, sums and
    integer ranges (Python's `range(lo, hi)`). */
module Seqs {

  /** The elements of `s` that satisfy `p`, in their original order
      (a Python list comprehension `[x for x in s if p(x)]`). */
  function Filter<T>(p: T -> bool, s: seq<T>): (r: seq<T>)
    ensures |r| <= |s|
    ensures forall i :: 0 <= i < |r| ==> p(r[i]) && r[i] in s
  {
    if |s| == 0 then []
    else if p(s[0]) then [s[0]] + Filter(p, s[1..])
    else Filter(p, s[1..])
  }

  /** Filtering distributes over concatenation: this is what "order-preserving" means. */
  lemma {:induction false} FilterConcat<T>(p: T -> bool, a: seq<T>, b: seq<T>)
    ensures Filter(p, a + b) == Filter(p, a) + Filter(p, b)
  {
    if |a| == 0 {
      assert a + b == b;
    } else {
      assert (a + b)[0] == a[0];
      assert (a + b)[1..] == a[1..] + b;
      FilterConcat(p, a[1..], b);
    }
  }

  /** An element survives the filter exactly when it was there and satisfies `p`. */
  lemma {:induction false} FilterMembership<T>(p: T -> bool, s: seq<T>, x: T)
    ensures x in Filter(p, s) <==> x in s && p(x)
  {
    if |s| > 0 {
      FilterMembership(p, s[1..], x);
      assert s == [s[0]] + s[1..];
    }
  }

  /** When every element satisfies `p`, the filter keeps the whole sequence. */
  lemma {:induction false} FilterKeepsAll<T>(p: T -> bool, s: seq<T>)
    requires forall i :: 0 <= i < |s| ==> p(s[i])
    ensures Filter(p, s) == s
  {
    if |s| > 0 {
      FilterKeepsAll(p, s[1..]);
    }
  }

  /** The filter is empty exactly when no element satisfies `p`. */
  lemma {:induction false} FilterEmpty<T>(p: T -> bool, s: seq<T>)
    ensures Filter(p, s) == [] <==> forall i :: 0 <= i < |s| ==> !p(s[i])
  {
    if |s| > 0 {
      FilterEmpty(p, s[1..]);
      if Filter(p, s) == [] {
        assert !p(s[0]);
        forall i | 0 < i < |s| ensures !p(s[i]) {
          assert s[i] == s[1..][i - 1];
        }
      } else if !p(s[0]) {
        var j :| 0 <= j < |s[1..]| && p(s[1..][j]);
        assert p(s[j + 1]);
      }
    }
  }

  /** The integers lo, lo+1, ..., hi-1 (empty when hi <= lo). */
  function Range(lo: int, hi: int): (r: seq<int>)
    ensures |r| == if hi > lo then hi - lo else 0
    ensures forall i :: 0 <= i < |r| ==> r[i] == lo + i
  {
    seq(if hi > lo then hi - lo else 0, i => lo + i)
  }

  /** Exact sum of a sequence of reals. */
  function Sum(s: seq<real>): real
  {
    if |s| == 0 then 0.0 else Sum(s[..|s| - 1]) + s[|s| - 1]
  }
}

=== FILE: stations.dfy ===
/** The two routes of `backend/station.py`: the query-argument defaults, the
    station filter of `/api/stations`, and the error shape both routes share.
    The upstream HTTP call is an oracle input: the decoded response text, or
    the text of the exception the request raised. */
module Stations {
  import opened Wrappers
  import opened Values
  import Seqs

  /** `request.args.get(key, '')`. */
  function ArgOr(args: map<string, string>, key: string): string
  {
    if key in args then args[key] else ""
  }

  /** The four query arguments of `/api/stations`. */
  datatype StationQuery = StationQuery(province: string, valley: string, target: string, variable: string)

  function StationArgs(args: map<string, string>): StationQuery
  {
    StationQuery(ArgOr(args, "province"), ArgOr(args, "valley"), ArgOr(args, "target_station"), ArgOr(args, "queried_variable"))
  }

  /** A missing query argument reads as the empty string, a present one as given. */
  lemma MissingArgumentsAreEmpty(args: map<string, string>)
    ensures "target_station" !in args ==> StationArgs(args).target == ""
    ensures "queried_variable" !in args ==> StationArgs(args).variable == ""
    ensures "target_station" in args ==> StationArgs(args).target == args["target_station"]
    ensures "queried_variable" in args ==> StationArgs(args).variable == args["queried_variable"]
  {
  }

  /** `not target_station or station.get(queried_variable, '') == target_station`. */
  predicate Matches(target: string, variable: string, station: Record)
  {
    target == "" || Get(station, variable, Str("")) == Str(target)
  }

  /** The stations `/api/stations` returns from `data['data']`. */
  function SelectStations(stations: seq<Record>, target: string, variable: string): (r: seq<Record>)
    ensures target == "" ==> r == stations
    ensures target != "" ==> forall s :: s in r <==> s in stations && variable in s && s[variable] == Str(target)
    ensures |r| <= |stations|
  {
    var keep := s => Matches(target, variable, s);
    if target == "" then
      Seqs.FilterKeepsAll(keep, stations);
      Seqs.Filter(keep, stations)
    else
      assert forall s :: s in Seqs.Filter(keep, stations) <==> s in stations && keep(s) by {
        forall s ensures s in Seqs.Filter(keep, stations) <==> s in stations && keep(s) {
          Seqs.FilterMembership(keep, stations, s);
        }
      }
      Seqs.Filter(keep, stations)
  }

  /** The selection keeps the stations' order: selecting from a concatenation
      is concatenating the selections. */
  lemma SelectStationsKeepsOrder(a: seq<Record>, b: seq<Record>, target: string, variable: string)
    ensures SelectStations(a + b, target, variable) == SelectStations(a, target, variable) + SelectStations(b, target, variable)
  {
    Seqs.FilterConcat(s => Matches(target, variable, s), a, b);
  }

  /** What `json.loads(content)` gives, as far as the route looks at it. */
  datatype Body =
    | Malformed(error: string)          // json.loads raised
    | NoDataKey                         // 'data' not in the decoded value
    | Data(stations: seq<Record>)       // data['data'], a list of objects

  /** A route's answer: the `{success: true, data}` body, a decoded upstream
      body passed through, or `{success: false, error}` with status 500. */
  datatype RouteReply =
    | Found(data: seq<Record>)
    | PassThrough(body: Value)
    | Error(error: string)
  {
    function Status(): int { if Error? then 500 else 200 }
  }

  const NoContentText := "No content received from API"

  /** `find_reservoir_stations()`. `content` is the decoded upstream text,
      or the text of the exception the request raised. */
  function FindReservoirStations(args: map<string, string>, content: Result<string, string>,
                                 parse: string -> Body): (r: RouteReply)
    ensures content.Failure? ==> r == Error(content.error)
    ensures content == Success("") ==> r == Error(NoContentText)
    ensures r.Error? <==> content.Failure? || content == Success("") || parse(content.value).Malformed?
    ensures content.Success? && content.value != "" && parse(content.value).NoDataKey? ==> r == Found([])
    ensures content.Success? && content.value != "" && parse(content.value).Data? ==>
      r == Found(SelectStations(parse(content.value).stations, StationArgs(args).target, StationArgs(args).variable))
    ensures r.Found? ==> forall s :: s in r.data ==> Matches(StationArgs(args).target, StationArgs(args).variable, s)
  {
    match content
    case Failure(e) => Error(e)
    case Success(text) =>
      if text == "" then Error(NoContentText)
      else
        match parse(text)
        case Malformed(e) => Error(e)
        case NoDataKey => Found([])
        case Data(stations) =>
          var q := StationArgs(args);
          var r := SelectStations(stations, q.target, q.variable);
          assert forall s :: s in r ==> Matches(q.target, q.variable, s);
          Found(r)
  }

  /** `find_reservoir_data()`: the upstream JSON passed through, or the error
      shape when the request or the decoding raised. */
  function FindReservoirData(content: Result<string, string>, parse: string -> Result<Value, string>): (r: RouteReply)
    ensures r.Status() == 500 <==> content.Failure? || parse(content.value).Failure?
    ensures r.Error? ==> r.error == if content.Failure? then content.error else parse(content.value).error
    ensures content.Success? && parse(content.value).Success? ==> r == PassThrough(parse(content.value).value)
    ensures !r.Found?
  {
    match content
    case Failure(e) => Error(e)
    case Success(text) =>
      match parse(text)
      case Failure(e) => Error(e)
      case Success(v) => PassThrough(v)
  }
}

=== FILE: tool_registry.dfy ===
/** The tool registry of `backend/tool_register.py`: registration-time
    validation of a tool's parameter declarations, dispatch by name with
    every failure turned into text, and the listing of registered tools.

    Python reflection (`inspect.getdoc`, `inspect.signature`, `typing.Annotated`)
    is replaced by explicit declaration data: a `Tool` carries what
    `getdoc` returns and, for every parameter in declaration order, its
    annotation as written. */
module ToolRegistry {
  import opened Wrappers
  import opened Values
  import PyText

  /** The first argument of `Annotated[...]`: a plain class (`str`), whose tag
      is its `__name__`, or a generic alias (`list[str]`), whose tag is its `str()`. */
  datatype TypeRef =
    | Plain(name: string)
    | Generic(origin: string, args: seq<string>)

  /** A parameter annotation: `Annotated[typ, *metadata]` or anything else. */
  datatype Annotation =
    | Annotated(typ: TypeRef, metadata: seq<Value>)
    | Bare(other: TypeRef)

  /** One parameter of the tool's signature; `annotation == None` is
      `inspect.Parameter.empty`. */
  datatype ParamDecl = ParamDecl(name: string, annotation: Option<Annotation>)

  /** A tool function: its `__name__`, the result of `inspect.getdoc` and its parameters. */
  datatype Tool = Tool(fnName: string, doc: Option<string>, params: seq<ParamDecl>)

  /** One entry of a tool descriptor's `params` list. */
  datatype ParamSpec = ParamSpec(name: string, description: string, typ: string, required: bool)

  /** The descriptor `{name, description, params}` stored in `_TOOL_DESCRIPTIONS`. */
  datatype ToolDef = ToolDef(name: string, description: string, params: seq<ParamSpec>)

  /** Why `register_tool` raises. */
  datatype RegError =
    | NoDocstring                               // getdoc(...) is None: `.strip()` raises AttributeError
    | MissingAnnotation(param: string)          // TypeError
    | NotAnnotated(param: string)               // TypeError
    | MetadataArity(param: string, count: nat)  // unpacking `(description, required)` raises ValueError
    | DescriptionNotStr(param: string)          // TypeError
    | RequiredNotBool(param: string)            // TypeError

  /** The exception text of each registration error; the text of an error
      about one parameter names that parameter. */
  function ErrorMessage(e: RegError): (r: string)
    ensures !e.NoDocstring? && !e.MetadataArity? ==> PyText.Contains(r, e.param)
  {
    match e
    case NoDocstring => "'NoneType' object has no attribute 'strip'"
    case MissingAnnotation(p) =>
      PyText.ContainsMiddle("Parameter `", p, "` missing type annotation");
      "Parameter `" + p + "` missing type annotation"
    case NotAnnotated(p) =>
      PyText.ContainsMiddle("Annotation type for `", p, "` must be typing.Annotated");
      "Annotation type for `" + p + "` must be typing.Annotated"
    case MetadataArity(p, n) =>
      if n < 2 then "not enough values to unpack (expected 2, got " + (if n == 0 then "0" else "1") + ")"
      else "too many values to unpack (expected 2)"
    case DescriptionNotStr(p) =>
      PyText.ContainsMiddle("Description for `", p, "` must be a string");
      "Description for `" + p + "` must be a string"
    case RequiredNotBool(p) =>
      PyText.ContainsMiddle("Required for `", p, "` must be a bool");
      "Required for `" + p + "` must be a bool"
  }

  /** The `type` tag stored for a parameter. */
  function TypeTag(t: TypeRef): (r: string)
    ensures t.Plain? ==> r == t.name
    ensures t.Generic? ==>
      && |r| >= |t.origin| + 2
      && r[..|t.origin|] == t.origin
      && r[|t.origin|] == '['
      && r[|r| - 1] == ']'
    ensures t.Generic? ==> forall a :: a in t.args ==> PyText.Contains(r, a)
  {
    match t
    case Plain(n) => n
    case Generic(o, args) =>
      TagNamesArgs(o, args);
      o + "[" + PyText.Join(args, ", ") + "]"
  }

  /** Every argument of a generic alias appears in its tag. */
  lemma TagNamesArgs(o: string, args: seq<string>)
    ensures forall a :: a in args ==> PyText.Contains(o + "[" + PyText.Join(args, ", ") + "]", a)
  {
    forall a | a in args ensures PyText.Contains(o + "[" + PyText.Join(args, ", ") + "]", a) {
      var i :| 0 <= i < |args| && args[i] == a;
      var pre, post := PyText.JoinSplit(args, ", ", i);
      assert o + "[" + PyText.Join(args, ", ") + "]" == (o + "[" + pre) + a + (post + "]");
      PyText.ContainsMiddle(o + "[" + pre, a, post + "]");
    }
  }

  /** A parameter declaration registration accepts. */
  predicate WellFormed(p: ParamDecl)
  {
    && p.annotation.Some?
    && p.annotation.value.Annotated?
    && |p.annotation.value.metadata| == 2
    && p.annotation.value.metadata[0].Str?
    && p.annotation.value.metadata[1].Bool?
  }

  /** `spec` records exactly what `p` declares: its name, its type tag, its
      description and its required flag. */
  predicate ParamDescribes(spec: ParamSpec, p: ParamDecl)
  {
    && p.annotation.Some?
    && p.annotation.value.Annotated?
    && p.annotation.value.metadata == [Str(spec.description), Bool(spec.required)]
    && spec.typ == TypeTag(p.annotation.value.typ)
    && spec.name == p.name
  }

  /** `d` is the descriptor of `tool`: its name, its stripped docstring, and one
      entry per parameter in declaration order. */
  predicate Describes(d: ToolDef, tool: Tool)
  {
    && d.name == tool.fnName
    && tool.doc.Some?
    && d.description == PyText.Strip(tool.doc.value)
    && |d.params| == |tool.params|
    && forall i :: 0 <= i < |d.params| ==> ParamDescribes(d.params[i], tool.params[i])
  }

  /** The body of the validation loop for one parameter, checks in source order. */
  function CheckParam(p: ParamDecl): (r: Result<ParamSpec, RegError>)
    ensures r.Success? <==> WellFormed(p)
    ensures r.Success? ==> ParamDescribes(r.value, p)
    ensures r.Failure? ==> !r.error.NoDocstring? && r.error.param == p.name
  {
    match p.annotation
    case None => Failure(MissingAnnotation(p.name))
    case Some(Bare(_)) => Failure(NotAnnotated(p.name))
    case Some(Annotated(typ, meta)) =>
      if |meta| != 2 then Failure(MetadataArity(p.name, |meta|))
      else if !meta[0].Str? then Failure(DescriptionNotStr(p.name))
      else if !meta[1].Bool? then Failure(RequiredNotBool(p.name))
      else
        var spec := ParamSpec(p.name, meta[0].s, TypeTag(typ), meta[1].b);
        assert meta == [Str(spec.description), Bool(spec.required)];
        Success(spec)
  }

  /** The validation loop: every parameter in declaration order; the first
      ill-formed one stops registration with its error. */
  function CheckParams(ps: seq<ParamDecl>): (r: Result<seq<ParamSpec>, RegError>)
    ensures r.Success? <==> forall i :: 0 <= i < |ps| ==> WellFormed(ps[i])
    ensures r.Success? ==>
      |r.value| == |ps| && forall i :: 0 <= i < |ps| ==> ParamDescribes(r.value[i], ps[i])
    ensures r.Failure? ==>
      exists k :: 0 <= k < |ps| && CheckParam(ps[k]) == Failure(r.error)
        && forall j :: 0 <= j < k ==> WellFormed(ps[j])
  {
    if |ps| == 0 then Success([])
    else
      match CheckParam(ps[0])
      case Failure(e) => Failure(e)
      case Success(spec) =>
        match CheckParams(ps[1..])
        case Failure(e) =>
          var k :| 0 <= k < |ps| - 1 && CheckParam(ps[1..][k]) == Failure(e)
            && forall j :: 0 <= j < k ==> WellFormed(ps[1..][j]);
          assert CheckParam(ps[k + 1]) == Failure(e);
          assert forall j :: 0 <= j < k + 1 ==> WellFormed(ps[j]) by {
            forall j | 0 < j < k + 1 ensures WellFormed(ps[j]) {
              assert ps[j] == ps[1..][j - 1];
            }
          }
          Failure(e)
        case Success(rest) =>
          assert forall i :: 0 < i < |ps| ==> ps[i] == ps[1..][i - 1];
          Success([spec] + rest)
  }

  /** What `register_tool` computes before touching the tables. */
  function Validate(tool: Tool): (r: Result<ToolDef, RegError>)
    ensures r.Success? <==> tool.doc.Some? && forall i :: 0 <= i < |tool.params| ==> WellFormed(tool.params[i])
    ensures r.Success? ==> Describes(r.value, tool)
    ensures tool.doc.None? ==> r == Failure(NoDocstring)
  {
    match tool.doc
    case None => Failure(NoDocstring)
    case Some(doc) =>
      match CheckParams(tool.params)
      case Failure(e) => Failure(e)
      case Success(specs) => Success(ToolDef(tool.fnName, PyText.Strip(doc), specs))
  }

  /** `_TOOL_HOOKS` and `_TOOL_DESCRIPTIONS`; `order` is the insertion order
      the Python dicts keep. */
  datatype Registry = Registry(hooks: map<string, Tool>, descriptions: map<string, ToolDef>, order: seq<string>)

  /** The registry invariant: both tables have the same keys, `order` lists
      each of them once, and every descriptor is filed under its own name. */
  predicate Valid(reg: Registry)
  {
    && reg.hooks.Keys == reg.descriptions.Keys
    && (forall i :: 0 <= i < |reg.order| ==> reg.order[i] in reg.hooks)
    && (forall n :: n in reg.hooks ==> n in reg.order)
    && (forall i, j :: 0 <= i < j < |reg.order| ==> reg.order[i] != reg.order[j])
    && (forall n :: n in reg.descriptions ==> reg.descriptions[n].name == n)
  }

  const EmptyRegistry := Registry(map[], map[], [])

  /** The registry starts out consistent and knows no tool. */
  lemma EmptyRegistryValid()
    ensures Valid(EmptyRegistry)
    ensures GetTools(EmptyRegistry) == []
  {
  }

  /** Both table writes of a successful registration; a new name goes to the
      end of the insertion order, a known one keeps its place. */
  function Insert(reg: Registry, tool: Tool, d: ToolDef): Registry
  {
    var order := if tool.fnName in reg.hooks then reg.order else reg.order + [tool.fnName];
    Registry(reg.hooks[tool.fnName := tool], reg.descriptions[tool.fnName := d], order)
  }

  /** Filing a descriptor under its own name keeps the registry invariant. */
  lemma InsertKeepsValid(reg: Registry, tool: Tool, d: ToolDef)
    requires Valid(reg) && d.name == tool.fnName
    ensures Valid(Insert(reg, tool, d))
  {
    var r := Insert(reg, tool, d);
    if tool.fnName !in reg.hooks {
      assert tool.fnName !in reg.order;
      forall i, j | 0 <= i < j < |r.order| ensures r.order[i] != r.order[j] {
        if j == |reg.order| {
          assert r.order[i] == reg.order[i];
        }
      }
    }
  }

  /** `register_tool(func)`: the updated registry and either the function,
      returned unchanged, or the exception raised. */
  function RegisterTool(reg: Registry, tool: Tool): (out: (Registry, Result<Tool, RegError>))
    ensures out.1.Failure? <==> Validate(tool).Failure?
    ensures out.1.Failure? ==> out.0 == reg && out.1.error == Validate(tool).error
    ensures out.1.Success? ==>
      && out.1.value == tool
      && out.0.hooks == reg.hooks[tool.fnName := tool]
      && tool.fnName in out.0.descriptions
      && Describes(out.0.descriptions[tool.fnName], tool)
      && (forall n :: n != tool.fnName ==>
            (n in out.0.descriptions <==> n in reg.descriptions)
            && (n in reg.descriptions ==> out.0.descriptions[n] == reg.descriptions[n]))
    ensures Valid(reg) ==> Valid(out.0)
  {
    match Validate(tool)
    case Failure(e) => (reg, Failure(e))
    case Success(d) =>
      var r := Insert(reg, tool, d);
      assert Valid(reg) ==> Valid(r) by {
        if Valid(reg) {
          InsertKeepsValid(reg, tool, d);
        }
      }
      (r, Success(tool))
  }

  /** What calling a tool does: it returns a value, or it raises and
      `traceback.format_exc()` gives the text. */
  datatype CallOutcome = Returned(v: Value) | Raised(traceback: string)

  /** `dispatch_tool(name, params)`. `invoke` stands for calling the registered
      function with the parameters as keyword arguments, including the case
      where the keyword arguments do not fit its signature. */
  function Dispatch(reg: Registry, name: string, args: Value, invoke: (Tool, Value) -> CallOutcome): (r: string)
    ensures name !in reg.hooks ==> r == "Tool `" + name + "` not found. Please use a provided tool."
    ensures name in reg.hooks ==>
      match invoke(reg.hooks[name], args)
      case Returned(v) => r == Show(v)
      case Raised(tb) => r == tb
  {
    if name !in reg.hooks then "Tool `" + name + "` not found. Please use a provided tool."
    else
      match invoke(reg.hooks[name], args)
      case Returned(v) => Show(v)
      case Raised(tb) => tb
  }

  /** An unknown name is answered without calling any tool: the answer does
      not depend on what the tools would do. */
  lemma DispatchUnknownInvokesNothing(reg: Registry, name: string, args: Value,
                                      invoke1: (Tool, Value) -> CallOutcome,
                                      invoke2: (Tool, Value) -> CallOutcome)
    requires name !in reg.hooks
    ensures Dispatch(reg, name, args, invoke1) == Dispatch(reg, name, args, invoke2)
  {
  }

  /** After a successful registration, dispatching the tool's name calls that tool. */
  lemma DispatchAfterRegister(reg: Registry, tool: Tool, args: Value, invoke: (Tool, Value) -> CallOutcome)
    requires RegisterTool(reg, tool).1.Success?
    ensures var text := Dispatch(RegisterTool(reg, tool).0, tool.fnName, args, invoke);
      match invoke(tool, args)
      case Returned(v) => text == Show(v)
      case Raised(tb) => text == tb
  {
  }

  /** `get_tools()`: the descriptors in registration order. The model is a
      value, so the copy shares nothing with the registry. */
  function GetTools(reg: Registry): (r: seq<ToolDef>)
    requires Valid(reg)
    ensures |r| == |reg.order|
    ensures forall i :: 0 <= i < |r| ==> r[i].name == reg.order[i] && r[i] == reg.descriptions[reg.order[i]]
  {
    seq(|reg.order|, i requires 0 <= i < |reg.order| => reg.descriptions[reg.order[i]])
  }

  /** Every registered descriptor appears in the listing, and only once. */
  lemma GetToolsListsEvery(reg: Registry, n: string)
    requires Valid(reg) && n in reg.descriptions
    ensures exists i :: 0 <= i < |GetTools(reg)| && GetTools(reg)[i] == reg.descriptions[n]
    ensures forall i, j :: 0 <= i < j < |GetTools(reg)| ==> GetTools(reg)[i].name != GetTools(reg)[j].name
  {
    var i :| 0 <= i < |reg.order| && reg.order[i] == n;
    assert GetTools(reg)[i] == reg.descriptions[n];
  }

  /** Registering a new name appends its descriptor to the listing. */
  lemma GetToolsAfterRegisterNew(reg: Registry, tool: Tool)
    requires Valid(reg) && Validate(tool).Success? && tool.fnName !in reg.hooks
    ensures Valid(RegisterTool(reg, tool).0)
    ensures GetTools(RegisterTool(reg, tool).0) == GetTools(reg) + [Validate(tool).value]
  {
    var reg' := RegisterTool(reg, tool).0;
    assert reg' == Insert(reg, tool, Validate(tool).value);
    assert reg'.order == reg.order + [tool.fnName];
    var d := Validate(tool).value;
    var l, l' := GetTools(reg), GetTools(reg');
    assert |l'| == |l| + 1;
    forall i | 0 <= i < |l'| ensures l'[i] == (l + [d])[i] {
      if i < |l| {
        assert reg'.order[i] == reg.order[i] != tool.fnName;
      }
    }
  }

  /** Registering a name already present replaces its descriptor where it
      stands and leaves every other entry of the listing alone. */
  lemma GetToolsAfterRegisterKnown(reg: Registry, tool: Tool, i: int)
    requires Valid(reg) && Validate(tool).Success? && tool.fnName in reg.hooks
    requires 0 <= i < |reg.order|
    ensures Valid(RegisterTool(reg, tool).0)
    ensures |GetTools(RegisterTool(reg, tool).0)| == |GetTools(reg)|
    ensures GetTools(RegisterTool(reg, tool).0)[i]
         == if reg.order[i] == tool.fnName then Validate(tool).value else GetTools(reg)[i]
  {
    var d := Validate(tool).value;
    var reg' := RegisterTool(reg, tool).0;
    assert reg' == Insert(reg, tool, d);
    assert reg'.order == reg.order;
    assert GetTools(reg')[i] == reg'.descriptions[reg.order[i]];
  }
}

=== FILE: values.dfy ===
/** The JSON-like values that flow through the backend: fields of data-API
    records, fields of chat-message dicts, tool return values. */
module Values {

  /** A Python value as far as the backend looks at it. Strings, booleans and
      `None` are told apart because the code tests for them
      (`isinstance(x, str)`, `isinstance(x, bool)`, `x != None`); a
      `function_call` entry is kept structured; every other value (a number,
      a list, a nested dict) is represented by the text Python's `str()`
      gives for it. */
  datatype Value =
    | Str(s: string)
    | Bool(b: bool)
    | Null
    | Call(name: string, arguments: string)
    | Other(text: string)

  /** A JSON object as decoded into a Python dict. */
  type Record = map<string, Value>

  /** Python's `str(v)`. */
  function Show(v: Value): string
  {
    match v
    case Str(s) => s
    case Bool(b) => if b then "True" else "False"
    case Null => "None"
    case Call(n, a) => "{'name': '" + n + "', 'arguments': '" + a + "'}"
    case Other(t) => t
  }

  /** Python's `d.get(key, default)`. */
  function Get(d: Record, key: string, default: Value): Value
  {
    if key in d then d[key] else default
  }
}

=== FILE: wrappers.dfy ===
/** Option and Result, the failure-carrying datatypes the rest of the model uses
    in place of Python's `None` and raised exceptions. */
module Wrappers {

  datatype Option<+T> = None | Some(value: T) {

    /** The carried value, or `default` when there is none. */
    function GetOr(default: T): T {
      match this
      case Some(v) => v
      case None => default
    }
  }

  datatype Result<+T, +E> = Success(value: T) | Failure(error: E)
}
